=== FILE: README.md ===
# miniws in Dafny

A model of the core of miniws, a small C++ WebSocket client library. Its
parts:

- **The frame codec** (`frame_codec.dfy`, module `FrameCodec`).
  - `EncodeMessage` is the text-frame encoder `createMessageFrame`.
  - `DecodeFrame` is the frame reader at the heart of the watcher thread, a
    pure function over the octets that arrive.
  - `Serialize` is a reference serializer for every header form of section
    5.2 of RFC 6455. The decoder is proved against it.
- **The frame read on the connection** (`frame_reader.dfy`, module
  `FrameReader`). The watcher's stage-by-stage exact reads: header, 16- or
  64-bit length, masking key, payload. Each read can fail on its own, and
  the model shows that the reads agree with `DecodeFrame`.
- **The opening handshake** (`handshake.dfy`, module `Handshake`).
  - The Upgrade request text the client writes. It is proved to read back
    line by line as exactly the seven header lines and the empty line.
  - The substring test the client applies to the server's answer.
- **The transport loops** (`transport.dfy`, module `BaseTransport`).
  - `receiveExact` and `sendAll` run over a primitive `receive`/`send`.
  - The primitive is a script of answers: "move at most n octets" or
    "fail". This makes every chunking and every failure point explicit.
- **The TLS session's ownership** (`tls_session.dfy`, module `TlsSession`).
  - The three handles a session holds (context, connection object, socket).
  - Move construction and move assignment, and the destructor.
  - Every failure path of `create`.
  - How wolfSSL's integer results map to `TlsResult`.
  - wolfSSL handles are abstract tokens in a set of live handles, so leaks
    and double releases can be stated.
- **The TLS transport** (`tls_transport.dfy`, module `TlsTransport`).
  - wolfSSL's answers to `wolfSSL_read`/`wolfSSL_write` become the script
    the transport loops run over. The loops are shown to stop at the
    first negative or zero answer with the matching error text, unless all
    the data has already moved.
  - `connect`: TCP connect, `create`, handshake, and what each failure
    leaves allocated. `shutdown`.
- **The client state machine** (`client.dfy`, module `MiniWs`). The fields of
  `ws::Client` (the `connected` flag, the pre-connection queue, the stream,
  the callbacks) and these operations:
  - `open`, `send` and `close`;
  - the logging helpers and the default printer;
  - the watcher: handshake, then flush of the queue, then the frame loop.

  The threads the client starts become sequential steps in the order the
  client starts them.

`bytes.dfy` (module `Bytes`) holds octets and the operations on them:
exclusive or, big-endian integers and decimal text. `results.dfy` (module
`Results`) holds `Option` and `Result`.

Things the library gets from outside are parameters of the model:

- the stream and its peer, as an `Inbound`/`Outbound` pair with a script of
  answers;
- the sixteen random nonce octets;
- `base64_encode`;
- the random masking keys of outgoing frames;
- the answers wolfSSL gives;
- the outcome of `connect` and `shutdown`.

## Model

| member | source | states |
|---|---|---|
| Bytes.XorSelfInverse | src/miniws.cpp:190-193 | Combining an octet twice with the same key octet by exclusive or gives the octet back. |
| Bytes.BigEndianRoundTrip | src/miniws.cpp:158-174 | A number below 256^w, written as w big-endian octets, is read back by the decoder's shift-in rule. |
| Bytes.DecimalInjective | src/miniws.cpp:47 | The decimal text `std::to_string` gives the port determines the port. |
| FrameCodec.MaskInvolution | src/miniws.cpp:72-74 | Masking a payload and then unmasking it with the same four-octet key recovers the payload. |
| FrameCodec.EncodeMessage | src/miniws.cpp:58-77 | The frame is 6 + \|m\| octets long. Its second octet has the mask bit set, and its low seven bits are \|m\| mod 128, the size truncated into the 7-bit field. |
| FrameCodec.EncodeMessageLayout | src/miniws.cpp:60-74 | Octet 0 is 0x81. Octet 1 is 0x80 + \|m\| mod 128. Octets 2-5 are the key. Octet 6+i is m[i] xor key[i mod 4]. |
| FrameCodec.DecodeFrame | src/miniws.cpp:146-193 | A decoded frame consumed between 2 and \|input\| octets, and its opcode is a 4-bit value. |
| FrameCodec.HeaderFields | src/miniws.cpp:152-174 | FIN is bit 7 of octet 0 and the opcode its low nibble. The mask bit is bit 7 of octet 1. Code 126 announces 2 length octets and 127 announces 8. The extension holds the payload length big-endian. |
| FrameCodec.DecodeParts | src/miniws.cpp:152-193 | Header, extension, key (only when the mask bit is set) and payload of the announced length decode to the unmasked frame. The frame consumes 2 + \|ext\| + \|key\| + len octets, whatever follows. |
| FrameCodec.DecodeSerialized | src/miniws.cpp:146-193 | Every valid frame decodes to its own FIN, opcode, mask flag and payload, and consumes exactly its octets. This holds in the inline, 16-bit and 64-bit length forms, masked or not, whatever follows. |
| FrameCodec.CutFrameTruncated | src/miniws.cpp:148-188 | Input cut short anywhere before the end of the frame at its start is reported as truncated. |
| FrameCodec.ProperPrefixTruncated | src/miniws.cpp:148-188 | No proper prefix of a serialized frame decodes, so a short input never yields a partial message. |
| FrameCodec.EncodeIsInlineFrame | src/miniws.cpp:58-77 | For messages of at most 125 octets, the encoder writes the masked, final text frame with an inline length. |
| FrameCodec.EncodeDecodeRoundTrip | src/miniws.cpp:58-77 | For messages of at most 125 octets, decoding the encoded frame gives FIN, opcode 1, masked and the message, consuming 6 + \|m\| octets, whatever follows. |
| FrameCodec.RoundTripIffShort | src/miniws.cpp:61 | The encode/decode round trip holds exactly when the message has at most 125 octets. |
| FrameCodec.FormFor | src/miniws.cpp:61 | The chosen length form holds the size, and it is inline exactly when the size is at most 125. |
| FrameCodec.EncodeMessageCorrected | src/miniws.cpp:58-77 | It agrees with the encoder up to 125 octets. The first octet is 0x81, and the second is the mask bit over the length code the size needs. |
| FrameCodec.CorrectedRoundTrip | src/miniws.cpp:58-77 | For every size below 2^64, decoding the corrected frame gives FIN, opcode 1, masked and the message, consuming exactly the frame. |
| FrameCodec.ReadSoFarStep | src/miniws.cpp:146-195 | After one more decoded frame, the frames seen plus what the rest of the input decodes to is still the whole stream. |
| FrameCodec.ReadSoFarEnd | src/miniws.cpp:146-195 | When the rest no longer holds a whole frame, the frames seen are the whole stream, which ends at the stage where the input ran out. |
| FrameCodec.DecodeStreamOfSerialized | src/miniws.cpp:146-196 | Frames written back to back are read back one by one, in order, and the reader then runs out of input at a frame boundary. |
| Handshake.DefaultPathRequestLine | include/miniws.hpp:20-24 | An address given only host and port asks for the root: its request reads back as eight lines, the first being "GET / HTTP/1.1". |
| Handshake.RequestLineOfPath | src/miniws.cpp:45-46 | When host, path and key hold no CR, the request reads back as eight lines, the first being "GET ", the path and " HTTP/1.1". |
| Handshake.FindFrom | src/miniws.cpp:131 | The position returned is the first occurrence at or after the start. None means no occurrence. |
| Handshake.RequestIsTerminatedLines | src/miniws.cpp:45-53 | The request text is its eight lines, each followed by CR LF. |
| Handshake.RequestLinesAvoidCR | src/miniws.cpp:45-53 | No line holds a CR when host, path and key hold none. |
| Handshake.RequestParsesToLines | src/miniws.cpp:45-53 | When host, path and key hold no CR: split at CR LF, the request is exactly these lines, followed by an empty line and nothing after it: "GET path HTTP/1.1", "Host: url:port" with the port always present, "Origin: http://url", Upgrade, Connection, Sec-WebSocket-Key and "Sec-WebSocket-Version: 13". |
| Handshake.AcceptsIffContains | src/miniws.cpp:131-134 | The response is accepted if and only if "HTTP/1.1 101" occurs in it somewhere. |
| Handshake.AcceptsAnywhere | src/miniws.cpp:131-134 | The status text is accepted wherever it appears, even after another status line. |
| Handshake.SwitchingProtocolsAccepted | src/miniws.cpp:131-137 | A proper "101 Switching Protocols" status line passes. |
| Handshake.NotFoundRejected | src/miniws.cpp:131-134 | A "404 Not Found" status line does not pass. |
| BaseTransport.Receive | include/BaseTransport.hpp:12 | The primitive returns at most the requested number of octets, and no more than the peer's answer allows, in order from the front of what the peer sent. A failure is the peer's own and leaves the data unread. |
| BaseTransport.Send | include/BaseTransport.hpp:11 | The primitive makes the peer accept a prefix of at most the offered octets, and no more than the peer's answer allows. A failure is the peer's own and moves nothing. |
| BaseTransport.ChainedMoved | src/BaseTransport.cpp:12-20 | In a chain of calls, every call but the last moved at least one octet. |
| BaseTransport.ReceiveStep | src/BaseTransport.cpp:12-20 | One more `receive` asks for exactly what is missing at the current offset. It extends the buffer in order and keeps the call chain. |
| BaseTransport.ReceiveExact | src/BaseTransport.cpp:8-23 | Every call got an answer the peer's script allows. The calls form a chain: each asks for the missing octets at the offset reached, after a call that moved something. The buffer is the in-order front of the data. Ok holds exactly when size octets arrived. Size 0 makes no call. An error is the primitive's own error, or "Connection closed before receiving all data" after a zero-octet answer. On a never-failing peer, Ok holds exactly when size octets are available, whatever the chunking. |
| BaseTransport.SendStep | src/BaseTransport.cpp:29-37 | One more `send` offers the unsent rest. The peer's octets stay an in-order prefix of the data. |
| BaseTransport.SendAll | src/BaseTransport.cpp:25-40 | Every call got an answer the peer's script allows. The calls form a chain, and the peer accepts an in-order prefix of the data. Ok carries the full size. An error is the primitive's own error, or "Connection closed before sending all data" after a zero-octet answer. On a never-failing peer the result is Ok(size). |
| FrameReader.ShortExtension | src/miniws.cpp:158-174 | A header whose extended length is cut short decodes as truncated at the length stage. |
| FrameReader.ShortKey | src/miniws.cpp:176-182 | A masked frame whose key is cut short decodes as truncated at the key stage. |
| FrameReader.ShortPayload | src/miniws.cpp:184-188 | A payload shorter than announced decodes as truncated at the payload stage. |
| FrameReader.ExtendedLength64 | src/miniws.cpp:164-173 | Shifting the eight octets into `len` one at a time gives their big-endian value, below 2^64. |
| FrameReader.ReadLength | src/miniws.cpp:155-174 | Codes up to 125 are the length itself. 126 reads two octets as `(ext[0] << 8) \| ext[1]`, and 127 reads eight. On a never-failing peer, it fails with the closed error exactly when too few octets are left. |
| FrameReader.ReadKey | src/miniws.cpp:176-182 | Four key octets are read only when the mask bit is set. On a never-failing peer, it fails exactly when fewer than four are left. |
| FrameReader.ReadPayload | src/miniws.cpp:184-193 | The payload of the announced length is read and unmasked. The result agrees with the decoder over the octets read. |
| FrameReader.ReadKeyAndPayload | src/miniws.cpp:176-193 | Key then payload. The result agrees with the decoder over header, extension and the rest. |
| FrameReader.ReadFrame | src/miniws.cpp:146-193 | The four stages of one loop iteration. A frame returned is what the decoder reads over the same octets. On a never-failing peer, the read fails with the closed error at exactly the stage where the decoder finds the input truncated. |
| TlsSession.Destroy | src/TlsSession.cpp:23-35 | Whatever was live before, exactly the handles the session owns leave the live set. Each owned handle that was not live counts as one misuse (a double release), and nothing else changes. |
| TlsSession.DestroyEmpty | src/TlsSession.cpp:23-35 | A default or moved-from session releases nothing. |
| TlsSession.MoveAssign | src/TlsSession.cpp:41-53 | Self-assignment changes nothing. Otherwise the destination takes all three fields, the source becomes empty, and no other session or resource changes. |
| TlsSession.MoveConstruct | src/TlsSession.cpp:37-39 | The new session holds the source's fields, the source is empty, and no resource changes. |
| TlsSession.MoveAssignKeepsSound | src/TlsSession.cpp:41-50 | A move assignment into any session, self-assignment included, keeps every owned handle live and every handle with at most one owner. |
| TlsSession.MoveConstructKeepsSound | src/TlsSession.cpp:37-39 | Move construction keeps every owned handle live and every handle with at most one owner. |
| TlsSession.OverwriteLeaks | src/TlsSession.cpp:43-45 | Moving into a session that holds handles leaves them allocated with no owner. |
| TlsSession.DestroyKeepsSound | src/TlsSession.cpp:23-35 | Destroying one session of a sound set releases exactly its handles, without misuse. The others still own live handles only. |
| TlsSession.MovedFromReleasesNothing | src/TlsSession.cpp:47-49 | After a move, destroying the moved-from session changes no resource. |
| TlsSession.Allocate | src/TlsSession.cpp:56-79 | It fails exactly when the context fails, when the verify paths fail while verifying, or when the connection object fails. Every failure returns the library's error code and leaves no new handle live. On success there are two fresh handles, and the context verifies its peer exactly when not insecure. |
| TlsSession.Create | src/TlsSession.cpp:55-89 | Err holds exactly on the three failure conditions, and then nothing stays allocated and the stream keeps its socket. On success the session owns a fresh context and connection object, its fd is invalid, and the stream's socket has been released. |
| TlsSession.CreateLeaksSocket | src/TlsSession.cpp:81-88 | After a successful create and the session's destruction, the stream's socket is still open and nothing owns it. |
| TlsSession.CreateOwningSocket | src/TlsSession.cpp:81-88 | The corrected create: the session's fd is the released socket, and the failure paths are unchanged. |
| TlsSession.CreateThenDestroyReleasesAll | src/TlsSession.cpp:55-89 | With the socket stored, create followed by destruction releases everything allocated plus the socket, without misuse. |
| TlsSession.MappingsDiffer | src/TlsSession.cpp:118-125 | A positive result other than WOLFSSL_SUCCESS is a successful transfer but a failed handshake or shutdown. |
| TlsTransport.MapError | src/TlsTransport.cpp:7-10 | A success passes through unchanged, and an error becomes the text of its code. |
| TlsTransport.TransferAnswer | src/TlsSession.cpp:100-116 | A call of a transport loop over the session fails exactly when wolfSSL answered negatively, and then with the text of the reported code. Otherwise it moved no more octets than the answer. |
| TlsTransport.ReceiveExactOverTls | src/TlsTransport.cpp:24-26 | Over successive `wolfSSL_read` answers, every call but the last got a positive answer. The loop fails with the code's text when the last answer is negative, and with "Connection closed before receiving all data" when it is not. The buffer is the in-order front of the data, and Ok holds exactly when it is full. |
| TlsTransport.SendAllOverTls | src/TlsTransport.cpp:20-22 | Over successive `wolfSSL_write` answers, every call but the last got a positive answer. The loop fails with the code's text when the last answer is negative, and with "Connection closed before sending all data" when it is not. Ok holds exactly when all the data went out. |
| TlsTransport.Connect | src/TlsTransport.cpp:12-18 | Ok holds exactly when the TCP connect succeeds, `create` succeeds with verification off, and the handshake answers WOLFSSL_SUCCESS. A failed connect or `create` leaves nothing new allocated. A failed handshake returns its code's text. On success the session owns the new handles, and the socket is open besides. |
| TlsTransport.FailedHandshakeLeaksSocket | src/TlsTransport.cpp:14-15 | After a failed handshake the context and connection object are freed, but the socket `create` released stays open with no owner. |
| TlsTransport.Shutdown | src/TlsSession.cpp:118-125 | The shutdown succeeds only on WOLFSSL_SUCCESS. Any other answer, including the 2 of an unfinished bidirectional shutdown, fails with the reported code's text. |
| MiniWs.SeverityName | src/miniws.cpp:225-232 | The name of a severity is a four- or five-letter word without ']'. Its first letter already tells the three severities apart. |
| MiniWs.ConsoleLine | src/miniws.cpp:29-31 | The printed line is '[', the severity name, "] ", the message and a newline, and nothing else. |
| MiniWs.ConsoleLineInjective | src/miniws.cpp:29-31 | A printed line determines the severity and the message. |
| MiniWs.NewClient | src/miniws.cpp:27-32 | A new client is disconnected, with an empty queue, no stream, the default printer and no message callback. |
| MiniWs.LogHelpersForward | include/miniws.hpp:49-57 | `info`, `debug` and `error` hand their message to the current log callback with severity Info, Debug and Error, and change nothing else. |
| MiniWs.DefaultPrinterPrints | src/miniws.cpp:27-32 | While the default printer is installed, each entry reaches the console as its bracketed line. |
| MiniWs.LastRegistrationWins | include/miniws.hpp:78-84 | Registering a callback twice keeps the last one. Message and log registrations do not interfere. |
| MiniWs.IsConnected | include/miniws.hpp:69-71 | A consistent client that reports itself connected has a stream. |
| MiniWs.OnlyHandshakeConnects | src/miniws.cpp:79-136 | `open`, `send`, `close`, the destructor, the callback setters and logging leave the flag as it is. The handshake step sets it exactly on acceptance. Nothing clears it. |
| MiniWs.Open | src/miniws.cpp:79-114 | A connected client only logs "already connected!". Otherwise the address is stored, the stream is kept on a successful connect, a failed connect is logged, and the flag stays clear. The queue, the callbacks, the deliveries and the abort flag stay as they were. |
| MiniWs.OpenGuard | src/miniws.cpp:79-83 | On a connected client, `open` changes nothing but the log. |
| MiniWs.MessageFrame | src/miniws.cpp:58-77 | The frame `send` writes is 6 + \|data\| octets long and starts with 0x81. For messages of at most 125 octets it decodes to the final, masked text frame of the message, consuming the whole frame. |
| MiniWs.Send | src/miniws.cpp:201-214 | Disconnected: the message is queued and logged. Connected: exactly one `send` call is made on the stream. If the peer fails it, nothing is accepted and "unable to send message frame: " plus the peer's reason is logged. If the peer takes a chunk, the accepted octets are the frame's prefix of that size and nothing is logged, even when the frame was cut short. |
| MiniWs.SendOnOpenStream | src/miniws.cpp:208-213 | On a peer that takes everything, the whole frame goes out and nothing is logged. |
| MiniWs.QueueWhileDisconnected | src/miniws.cpp:201-206 | While disconnected, `send` appends to the end of the queue and changes nothing else but the log. |
| MiniWs.PartialSendUnreported | src/miniws.cpp:208-213 | A stream that takes one octet leaves only 0x81 sent, and the log says nothing. |
| MiniWs.Close | src/miniws.cpp:216-223 | Without a stream nothing happens. With one, the stream is shut down, or the failure is logged. The flag and the queue stay as they are. |
| MiniWs.Dispose | include/miniws.hpp:64-66 | Destroying a client closes it: its stream is shut down unless the shutdown fails, in which case exactly one entry, "unable to shutdown stream: " and the reason, is logged. Without a stream, nothing is logged. |
| MiniWs.Flush | src/miniws.cpp:139-143 | Each queued message takes exactly one `send` call, so the stream's script advances by the queue's length, and the queue is not emptied. Each message adds at most one entry to the end of the log, and earlier entries stay. On a peer that takes everything, their frames go out back to back in queue order and nothing is logged. |
| MiniWs.FramesReadBackInOrder | src/miniws.cpp:139-143 | When every queued message has at most 125 octets, the flushed frames read back as the queued messages, in FIFO order. |
| MiniWs.Greet | src/miniws.cpp:120-134 | For any peer: the request fails exactly when the peer's answer to the one `send` is a failure, with that reason. After a sent request, the response fails exactly when the answer to the one `receive` is a failure, with that reason and nothing read. Otherwise the verdict is Accepted or Rejected, and it is Accepted exactly when the octets that one read moves contain "HTTP/1.1 101"; the read takes at most 4095 octets and the peer's chunk, and leaves the rest pending. On a peer that takes everything, the whole request is sent. |
| MiniWs.GreetOnOpenConnection | src/miniws.cpp:120-134 | On a never-failing connection, the request goes out whole. The response is the first min(4095, available) octets, and the handshake is accepted exactly when they contain "HTTP/1.1 101". |
| MiniWs.EarlyFramesSwallowed | src/miniws.cpp:125-129 | Frames that arrive together with the response are consumed by the handshake read. |
| MiniWs.SplitResponseRejected | src/miniws.cpp:125-134 | When the first read moves fewer octets than "HTTP/1.1 101" has, the handshake is rejected, even though the server sent a complete 101 response. |
| MiniWs.ReadHeadSplits | src/miniws.cpp:125-129 | The corrected handshake read returns the front of the pending octets, within the 4095-octet buffer, and leaves the rest pending. |
| MiniWs.ReadHeadExact | src/miniws.cpp:125-129 | On a never-failing connection, the corrected read returns exactly the response head, through the empty line, whatever the chunking. Exactly what follows the head stays pending. |
| MiniWs.GreetCorrected | src/miniws.cpp:117-134 | The corrected handshake accepts only if some prefix of at most 4095 received octets contains the status text. |
| MiniWs.GreetCorrectedReadsHead | src/miniws.cpp:117-134 | On a never-failing connection, whatever sizes the reads come in, the corrected handshake is accepted exactly when the whole response head contains "HTTP/1.1 101". The octets after the head stay for the frame reader. |
| MiniWs.StageMessage | src/miniws.cpp:149-187 | The entry a failed frame read logs starts with "unable to " and ends with ": ", which comes before the reason. |
| MiniWs.StageMessageInjective | src/miniws.cpp:149-187 | Each of the four stages has its own text, so the log tells where a frame read failed. |
| MiniWs.Upgrade | src/miniws.cpp:117-137 | The flag becomes set exactly on acceptance, and one entry is logged: Info on acceptance, Error otherwise. |
| MiniWs.ReceiveLoop | src/miniws.cpp:146-196 | On any connection, the frames read are a prefix of the frames the decoder finds in the stream, at most one entry is appended to the earlier log, the flag stays set and nothing is sent. With a message callback, the callback receives the payloads of those frames, in order, and exactly one error entry is appended. On a never-failing connection with a message callback, the prefix is all the complete frames, and the entry is the failing stage's text with the closed error. Without a message callback, nothing is delivered; on a never-failing connection the client aborts exactly when a complete frame arrives. |
| MiniWs.Watch | src/miniws.cpp:117-199 | The flag is set exactly when the handshake is accepted. A rejected handshake delivers nothing. The earlier log is kept and at least one entry is added. After acceptance, on any connection, a message callback receives, in order, a prefix of the frames that follow the handshake response, and on a never-failing incoming side all of them. When the outgoing side never fails, the request and then the queued frames go out in order. |

## Left out

- Threads. `open` starts the watcher on a detached thread, and the watcher
  starts the flush on another. The race between the flush, `send` and the
  flag is not modelled: `Watch` runs the handshake, then the flush, then the
  frame loop, in that order.
- Socket and TLS setup in `open` (wolfSSL init, `sockaddr_in`, `connect`).
  The outcome of `connect` is a parameter of `Open`. The address written
  into `sockaddr_in` is INADDR_ANY whatever the url says; this is not
  modelled.
- Randomness. The nonce octets and the masking keys (`rand() % 256`) are
  parameters.
- `base64_encode`. It is a function parameter of `Request`, about which
  nothing is assumed.
- MiniWs.Greet: the response is exactly the octets received. The client
  builds a `std::string` from a buffer it never terminates, so the real text
  ends at the first NUL octet, or runs past the received octets. That is
  undefined behaviour and is not modelled.
- qsox is not part of this model. The client's stream is a qsox
  `TcpStream`, whose `receiveExact`, `send` and `shutdown` the client calls.
  The model assumes that they behave like `BaseTransport.ReceiveExact`, the
  primitive `BaseTransport.Send` and the `outcome` parameter of `Close`,
  closed-connection text included. `TlsTransport.Connect` assumes that a `TcpStream` closes
  its socket when it is destroyed.
- `TcpTransport` delegates every call to qsox and adds nothing to model.
- The `static_cast<int>` of the size `TlsSession` passes to
  wolfSSL is not modelled, because the library's answer is a parameter.
- `fmt` formatting. Log texts are the format string's fixed part followed
  by the error message.
- `std::bad_alloc` for a huge announced payload length. The model reads the
  payload as long as the stream supplies it.
- The port of a default-initialised `ServerAddress` is indeterminate in the
  client. `NewClient` uses 0.
- A log callback registered empty would throw on every log call; the model
  takes every log sink to be callable. An empty message callback is modelled:
  the first delivered frame ends the program, and `aborted` records that.
- `close()` at the end of `watch` is unreachable, because the loop's flag is
  never cleared. `Watch` does not call it.
- `TlsError::message` is the parameter `message` of the TLS transport. The
  static `WolfsslInitGuard` is a library internal.
- Strings are taken to hold only characters below 256, as a `std::string`
  holds octets. `Bytes.Octets` folds any other character modulo 256.
- MiniWs.Watch: runs the handshake as written (`Greet`). The corrected
  read of the Findings row (`GreetCorrected`) stands beside it and is not
  wired into the watcher, so the watcher's properties describe the program
  as it is.
- MiniWs.FramesReadBackInOrder: stated for messages of at most 125 octets
  only, because the client's frames of longer messages do not read back
  (see Findings).

## Findings

| source | as written | input that shows it | evidently intended | confidence | as-written member | corrected member |
|---|---|---|---|---|---|---|
| src/miniws.cpp:61 | The message size is OR-ed into the 7-bit length field, whatever the size. | A 126-octet message: the header announces a 16-bit extended length and the decoder reads two key octets as the length. A 200-octet message announces 72 octets. | Sizes over 125 use code 126 with a 16-bit length, or code 127 with a 64-bit length. | high; not executed | FrameCodec.RoundTripIffShort | FrameCodec.CorrectedRoundTrip |
| src/miniws.cpp:125-134 | The handshake is decided on the octets of a single `receive` of up to 4095 octets. Whatever else that read took is dropped. | A 101 response that arrives in two reads, the first shorter than "HTTP/1.1 101", is rejected. Frames sent together with the response are lost. | The response is read through the empty line that ends its head (section 4.1 of RFC 6455), and what follows is left to the frame reader. | medium; not executed | MiniWs.SplitResponseRejected | MiniWs.GreetCorrectedReadsHead |
| src/TlsSession.cpp:83-84 | `create` releases the socket from the stream and gives it only to wolfSSL; the session's `fd` stays invalid. | Any successful `create` followed by destruction of the session: the socket is never closed. | The session stores the released socket in `fd`, so its destructor closes it. | medium; not executed | TlsSession.CreateLeaksSocket | TlsSession.CreateThenDestroyReleasesAll |

=== FILE: bytes.dfy ===
/** Octets, the bit operations the frame codec applies to them, the
    conversions between octets and text, and the two integer encodings the
    client puts on the wire: big-endian lengths in frame headers and the
    decimal port in the handshake's Host header. */
module Bytes {

  type byte = b: int | 0 <= b < 256
  type bytes = seq<byte>

  function Min(a: nat, b: nat): nat
  {
    if a <= b then a else b
  }

  // ---------------------------------------------------------------------
  // Bit operations on octets

  /** `b & 0x80` is non-zero. */
  predicate HighBit(b: byte)
  {
    b >= 0x80
  }

  /** `b & 0x7F`. */
  function Low7(b: byte): byte
  {
    b % 0x80
  }

  /** `b & 0x0F`. */
  function LowNibble(b: byte): byte
  {
    b % 0x10
  }

  /** `0x80 | b`: sets the high bit and keeps the low seven. */
  function SetHighBit(b: byte): (r: byte)
    ensures HighBit(r) && Low7(r) == Low7(b)
  {
    0x80 + b % 0x80
  }

  function Pow2(n: nat): (p: nat)
    ensures p >= 1
  {
    if n == 0 then 1 else 2 * Pow2(n - 1)
  }

  /** Bitwise exclusive or of two naturals, lowest bit first. */
  function XorBits(a: nat, b: nat): nat
    decreases a + b
  {
    if a == 0 && b == 0 then 0 else 2 * XorBits(a / 2, b / 2) + (a + b) % 2
  }

  /** One unfolding of `XorBits`, kept out of the involution proof so that
      the solver does not unfold it there. */
  lemma XorStep(a: nat, b: nat)
    ensures XorBits(a, b) == 2 * XorBits(a / 2, b / 2) + (a + b) % 2
  {
  }

  /** Exclusive or never sets a bit above the operands' width. */
  lemma {:induction false} XorBitsBound(a: nat, b: nat, k: nat)
    requires a < Pow2(k) && b < Pow2(k)
    ensures XorBits(a, b) < Pow2(k)
    decreases k
  {
    if !(a == 0 && b == 0) {
      XorBitsBound(a / 2, b / 2, k - 1);
    }
  }

  /** `a ^ b` on octets. */
  function Xor(a: byte, b: byte): byte
  {
    XorBitsBound(a, b, 8);
    XorBits(a, b)
  }

  /** Exclusive or with a fixed octet undoes itself. */
  lemma {:induction false} XorInvolution(a: nat, k: nat)
    ensures XorBits(XorBits(a, k), k) == a
    decreases a + k
  {
    if a + k > 0 {
      var x := XorBits(a, k);
      XorStep(x, k);
      assert x / 2 == XorBits(a / 2, k / 2) && x % 2 == (a + k) % 2;
      XorInvolution(a / 2, k / 2);
    }
  }

  lemma XorSelfInverse(a: byte, k: byte)
    ensures Xor(Xor(a, k), k) == a
  {
    XorInvolution(a, k);
  }

  // ---------------------------------------------------------------------
  // Text

  /** The octets a `std::string` holds, one per character. */
  function Octets(s: string): (r: bytes)
    ensures |r| == |s|
  {
    seq(|s|, i requires 0 <= i < |s| => (s[i] as int) % 256)
  }

  /** The text a run of octets spells, one character per octet, the way the
      client turns received octets into a `std::string`. */
  function Text(bs: bytes): (s: string)
    ensures |s| == |bs|
  {
    seq(|bs|, i requires 0 <= i < |bs| => bs[i] as char)
  }

  /** True if `x` does not occur in `s`. */
  predicate Avoids<T(==)>(s: seq<T>, x: T)
  {
    forall i :: 0 <= i < |s| ==> s[i] != x
  }

  lemma AvoidsAppend<T>(s: seq<T>, t: seq<T>, x: T)
    ensures Avoids(s + t, x) <==> Avoids(s, x) && Avoids(t, x)
  {
    if Avoids(s + t, x) {
      forall i | 0 <= i < |s| ensures s[i] != x {
        assert (s + t)[i] == s[i];
      }
      forall i | 0 <= i < |t| ensures t[i] != x {
        assert (s + t)[|s| + i] == t[i];
      }
    }
  }

  // ---------------------------------------------------------------------
  // Big-endian unsigned integers (the 16- and 64-bit frame lengths)

  function Pow256(n: nat): (p: nat)
    ensures p >= 1
  {
    if n == 0 then 1 else 256 * Pow256(n - 1)
  }

  /** The value of `bs` read most significant octet first, the way the
      decoder shifts each extension octet into `len`. */
  function BigEndian(bs: bytes): nat
  {
    if bs == [] then 0 else BigEndian(bs[..|bs| - 1]) * 256 + bs[|bs| - 1]
  }

  /** The 16-bit case: `(a << 8) | b`. */
  lemma BigEndianPair(a: byte, b: byte)
    ensures BigEndian([a, b]) == (a as int) * 256 + b
  {
    assert [a, b][..1] == [a];
    assert [a][..0] == [];
    assert BigEndian([a]) == a;
  }

  /** The `width` low-order octets of `n`, most significant first. */
  function ToBigEndian(n: nat, width: nat): (bs: bytes)
    ensures |bs| == width
  {
    if width == 0 then [] else ToBigEndian(n / 256, width - 1) + [n % 256]
  }

  /** Writing a number that fits in `width` octets and reading it back gives
      the number again. */
  lemma {:induction false} BigEndianRoundTrip(n: nat, width: nat)
    requires n < Pow256(width)
    ensures BigEndian(ToBigEndian(n, width)) == n
  {
    if width > 0 {
      var bs := ToBigEndian(n, width);
      assert bs[..|bs| - 1] == ToBigEndian(n / 256, width - 1);
      BigEndianRoundTrip(n / 256, width - 1);
    }
  }

  // ---------------------------------------------------------------------
  // Decimal text (`std::to_string(int)`)

  predicate IsDigit(c: char)
  {
    '0' <= c <= '9'
  }

  /** The decimal digits of `n`, most significant first, without leading
      zeros ("0" for zero). */
  function Digits(n: nat): (ds: string)
    ensures |ds| >= 1
    ensures forall i :: 0 <= i < |ds| ==> IsDigit(ds[i])
    ensures |ds| > 1 ==> ds[0] != '0'
    decreases n
  {
    if n < 10 then [(0x30 + n) as char] else Digits(n / 10) + [(0x30 + n % 10) as char]
  }

  /** Reads a run of decimal digits back into a number. */
  function DigitsValue(ds: string): nat
  {
    if ds == [] then 0
    else DigitsValue(ds[..|ds| - 1]) * 10 + (if IsDigit(ds[|ds| - 1]) then ds[|ds| - 1] as int - 0x30 else 0)
  }

  lemma {:induction false} DigitsRoundTrip(n: nat)
    ensures DigitsValue(Digits(n)) == n
    decreases n
  {
    if n >= 10 {
      var ds := Digits(n);
      assert ds[..|ds| - 1] == Digits(n / 10);
      DigitsRoundTrip(n / 10);
    }
  }

  /** `std::to_string` of a signed integer: a minus sign for negatives. */
  function Decimal(n: int): (r: string)
    ensures Avoids(r, '\r')
  {
    if n < 0 then "-" + Digits(-n) else Digits(n)
  }

  /** The decimal text determines the integer it was made from. */
  lemma DecimalInjective(m: int, n: int)
    requires Decimal(m) == Decimal(n)
    ensures m == n
  {
    if m < 0 && n < 0 {
      assert Digits(-m) == Decimal(m)[1..];
      DigitsRoundTrip(-m);
      DigitsRoundTrip(-n);
    } else if m >= 0 && n >= 0 {
      DigitsRoundTrip(m);
      DigitsRoundTrip(n);
    }
  }
}

=== FILE: client.dfy ===
/** `ws::Client`: the connection flag, the queue of messages sent before the
    handshake, the callbacks, and the watcher that performs the handshake,
    flushes the queue and then reads frames until a read fails. The watcher
    and the flush run on threads in the client; here they are sequential
    steps, run in the order the client starts them. */
module MiniWs {
  import opened Bytes
  import opened Results
  import opened FrameCodec
  import opened Handshake
  import opened BaseTransport
  import opened FrameReader

  // ---------------------------------------------------------------------
  // Logging

  datatype LogSeverity = Info | Debug | Error

  /** `severityToString`: a one-word name, distinct for each severity
      already in its first letter. */
  function SeverityName(severity: LogSeverity): (name: string)
    ensures 4 <= |name| <= 5 && Avoids(name, ']')
    ensures name[0] == 'D' <==> severity == Debug
    ensures name[0] == 'E' <==> severity == Error
    ensures name[0] == 'I' <==> severity == Info
  {
    match severity
    case Debug => "Debug"
    case Error => "Error"
    case Info => "Info"
  }

  /** The line the default log callback prints: the severity in brackets,
      the message, a newline. */
  function ConsoleLine(severity: LogSeverity, text: string): (line: string)
    ensures |line| == |SeverityName(severity)| + |text| + 4
    ensures var k := |SeverityName(severity)|;
      && line[0] == '[' && line[1..k + 1] == SeverityName(severity) && line[k + 1..k + 3] == "] "
      && line[k + 3..|line| - 1] == text && line[|line| - 1] == '\n'
  {
    "[" + SeverityName(severity) + "] " + text + "\n"
  }

  /** A printed line tells which severity and which message it reports. */
  lemma ConsoleLineInjective(s1: LogSeverity, t1: string, s2: LogSeverity, t2: string)
    requires ConsoleLine(s1, t1) == ConsoleLine(s2, t2)
    ensures s1 == s2 && t1 == t2
  {
    var line := ConsoleLine(s1, t1);
    assert line[1] == SeverityName(s1)[0];
    assert ConsoleLine(s2, t2)[1] == SeverityName(s2)[0];
    var k := |SeverityName(s1)| + 3;
    assert line[k..|line| - 1] == t1;
    assert ConsoleLine(s2, t2)[k..|line| - 1] == t2;
  }

  /** The log callback: the printer the constructor installs, or the one
      registered by the `id`-th `onLog`. */
  datatype LogSink = DefaultPrinter | LogHandler(id: nat)

  /** The message callback: empty until `onMessage` registers one. */
  datatype MessageSink = NoMessageHandler | MessageHandler(id: nat)

  datatype LogEntry = LogEntry(sink: LogSink, severity: LogSeverity, text: string)

  datatype Delivery = Delivery(sink: MessageSink, message: string)

  /** What the default printer has printed: a line for every entry logged
      while it was the log callback. */
  function Console(log: seq<LogEntry>): seq<string>
  {
    if log == [] then []
    else
      var last := log[|log| - 1];
      Console(log[..|log| - 1]) + (if last.sink == DefaultPrinter then [ConsoleLine(last.severity, last.text)] else [])
  }

  // ---------------------------------------------------------------------
  // Client state

  /** The TCP stream: the incoming side, the outgoing side, and whether it
      has been shut down. */
  datatype Link = Link(incoming: Inbound, outgoing: Outbound, shutDown: bool)

  /** The client's fields, and what it has done so far: the log entries and
      messages handed to the callbacks, and whether the watcher called an
      empty message callback (which throws and ends the program). */
  datatype Client = Client(
    connected: bool,
    queue: seq<string>,
    stream: Option<Link>,
    address: ServerAddress,
    messageSink: MessageSink,
    logSink: LogSink,
    log: seq<LogEntry>,
    delivered: seq<Delivery>,
    aborted: bool)

  /** A connected client has a stream. */
  predicate Consistent(c: Client)
  {
    c.connected ==> c.stream.Some?
  }

  /** `Client()`: disconnected, nothing queued, no stream, the default
      printer as log callback and no message callback. The address is not
      set until `open`; here it has an empty url, port 0 and the default
      path. */
  function NewClient(): (c: Client)
    ensures !c.connected && c.queue == [] && c.stream.None? && Consistent(c)
    ensures c.logSink == DefaultPrinter && c.messageSink == NoMessageHandler
    ensures c.log == [] && c.delivered == [] && !c.aborted
  {
    Client(false, [], None, AddressWithDefaultPath("", 0), NoMessageHandler, DefaultPrinter, [], [], false)
  }

  /** `isConnected`: the flag alone; a consistent client that reports it
      has a stream to talk over. */
  function IsConnected(c: Client): (connected: bool)
    ensures connected && Consistent(c) ==> c.stream.Some?
  {
    c.connected
  }

  /** The client's `logCallback(severity, message)`. */
  function Log(c: Client, severity: LogSeverity, text: string): Client
  {
    c.(log := c.log + [LogEntry(c.logSink, severity, text)])
  }

  function LogInfo(c: Client, text: string): Client
  {
    Log(c, Info, text)
  }

  function LogDebug(c: Client, text: string): Client
  {
    Log(c, Debug, text)
  }

  function LogError(c: Client, text: string): Client
  {
    Log(c, Error, text)
  }

  /** `info`, `debug` and `error` hand their message to the current log
      callback with their severity, and change nothing else. */
  lemma LogHelpersForward(c: Client, text: string)
    ensures LogInfo(c, text).log == c.log + [LogEntry(c.logSink, Info, text)]
    ensures LogDebug(c, text).log == c.log + [LogEntry(c.logSink, Debug, text)]
    ensures LogError(c, text).log == c.log + [LogEntry(c.logSink, Error, text)]
    ensures LogInfo(c, text).(log := c.log) == c && LogDebug(c, text).(log := c.log) == c
    ensures LogError(c, text).(log := c.log) == c
  {
  }

  /** Until `onLog` replaces it, every entry reaches the console as its
      bracketed line. */
  lemma DefaultPrinterPrints(c: Client, severity: LogSeverity, text: string)
    requires c.logSink == DefaultPrinter
    ensures Console(Log(c, severity, text).log) == Console(c.log) + [ConsoleLine(severity, text)]
  {
    var log := Log(c, severity, text).log;
    assert log[..|log| - 1] == c.log;
  }

  /** `onMessage`: replaces the message callback. */
  function OnMessage(c: Client, id: nat): Client
  {
    c.(messageSink := MessageHandler(id))
  }

  /** `onLog`: replaces the log callback. */
  function OnLog(c: Client, id: nat): Client
  {
    c.(logSink := LogHandler(id))
  }

  /** The last registration wins, and the two setters do not interfere. */
  lemma LastRegistrationWins(c: Client, a: nat, b: nat)
    ensures OnMessage(OnMessage(c, a), b) == OnMessage(c, b)
    ensures OnLog(OnLog(c, a), b) == OnLog(c, b)
    ensures OnLog(OnMessage(c, a), b) == OnMessage(OnLog(c, b), a)
    ensures OnLog(c, b).(logSink := c.logSink) == c
  {
  }

  // ---------------------------------------------------------------------
  // open, send, close

  /** `open`: refused with an error when already connected; otherwise the
      address is stored and the stream is connected, or the connect error is
      logged. Starting the watcher is the separate step `Watch`. */
  function Open(c: Client, address: ServerAddress, connect: Result<Link, string>): (r: Client)
    ensures c.connected ==> r == LogError(c, "already connected!")
    ensures !c.connected ==>
      && r.address == address && !r.connected && r.queue == c.queue && r.delivered == c.delivered
      && r.messageSink == c.messageSink && r.logSink == c.logSink && r.aborted == c.aborted
      && (connect.Ok? ==> r.stream == Some(connect.value) && r.log == c.log)
      && (connect.Err? ==> r.stream == c.stream && r.log == c.log + [LogEntry(c.logSink, Error, "error connecting to tcpstream: " + connect.error)])
    ensures Consistent(c) ==> Consistent(r)
  {
    if IsConnected(c) then LogError(c, "already connected!")
    else
      var c' := c.(address := address);
      match connect
      case Err(e) => LogError(c', "error connecting to tcpstream: " + e)
      case Ok(link) => c'.(stream := Some(link))
  }

  /** `open` on a connected client only logs the refusal. */
  lemma OpenGuard(c: Client, address: ServerAddress, connect: Result<Link, string>)
    requires c.connected
    ensures Open(c, address, connect).(log := c.log) == c
    ensures Open(c, address, connect).log == c.log + [LogEntry(c.logSink, Error, "already connected!")]
  {
  }

  /** The frame `send` writes for `data` with masking key `key`:
      `createMessageFrame` as written. It reads back as the message when the
      message has at most 125 octets. */
  function MessageFrame(data: string, key: MaskKey): (frame: bytes)
    ensures |frame| == 6 + |data| && frame[0] == 0x81
    ensures |data| <= 125 ==> DecodeFrame(frame) == Decoded(Frame(true, 1, true, Octets(data)), |frame|)
  {
    var frame := EncodeMessage(Octets(data), key);
    EncodeMessageLayout(Octets(data), key);
    if |data| <= 125 then RoundTripIffShort(Octets(data), key); frame else frame
  }

  /** `send`: before the handshake the message is queued; afterwards its
      frame goes out in a single `send` call on the stream, whose failure is
      logged and whose short count is ignored. */
  function Send(c: Client, data: string, key: MaskKey): (r: Client)
    requires Consistent(c)
    ensures Consistent(r) && r.connected == c.connected && r.delivered == c.delivered
    ensures r.messageSink == c.messageSink && r.logSink == c.logSink && r.aborted == c.aborted
    ensures !c.connected ==> r == LogInfo(c, "adding to queue").(queue := c.queue + [data])
    ensures c.connected ==>
      var before := c.stream.value.outgoing;
      var frame := MessageFrame(data, key);
      var step := NextStep(before.script, |frame|);
      && r.queue == c.queue && r.stream.Some?
      && r.stream.value.incoming == c.stream.value.incoming
      && r.stream.value.outgoing.script == Drop(before.script, 1)
      && (step.Failure? ==>
            && r.stream.value.outgoing.accepted == before.accepted
            && r.log == c.log + [LogEntry(c.logSink, Error, "unable to send message frame: " + step.reason)])
      && (step.Chunk? ==>
            && r.stream.value.outgoing.accepted == before.accepted + frame[..Min(step.limit, |frame|)]
            && r.log == c.log)
  {
    if !IsConnected(c) then LogInfo(c, "adding to queue").(queue := c.queue + [data])
    else
      var link := c.stream.value;
      var frame := MessageFrame(data, key);
      var (reply, out) := BaseTransport.Send(link.outgoing, frame);
      var c' := c.(stream := Some(link.(outgoing := out)));
      if reply.Err? then LogError(c', "unable to send message frame: " + reply.error) else c'
  }

  /** While disconnected, `send` appends to the end of the queue and logs
      the fact; nothing else changes. */
  lemma QueueWhileDisconnected(c: Client, data: string, key: MaskKey)
    requires !c.connected
    ensures Send(c, data, key).queue == c.queue + [data]
    ensures Send(c, data, key).(queue := c.queue, log := c.log) == c
  {
  }

  /** A live send can be cut short without any trace in the log: a stream
      that takes one octet leaves the frame incomplete. */
  lemma PartialSendUnreported(c: Client, data: string, key: MaskKey)
    requires c.connected && c.stream.Some? && c.stream.value.outgoing.script == [Chunk(1)]
    ensures var r := Send(c, data, key);
      && r.stream.value.outgoing.accepted == c.stream.value.outgoing.accepted + [0x81]
      && r.log == c.log
  {
  }

  /** On a stream that takes every write, a live send puts the whole frame
      on the wire and logs nothing. */
  lemma SendOnOpenStream(c: Client, data: string, key: MaskKey)
    requires c.connected && c.stream.Some? && c.stream.value.outgoing.script == []
    ensures var r := Send(c, data, key);
      && r.stream.value.outgoing == Outbound(c.stream.value.outgoing.accepted + MessageFrame(data, key), [])
      && r.log == c.log
  {
    var frame := MessageFrame(data, key);
    assert frame[..Min(|frame|, |frame|)] == frame;
  }

  /** `close`: shuts the stream down in both directions if there is one; a
      failure is logged. Neither the flag nor the stream is reset. */
  function Close(c: Client, outcome: Result<(), string>): (r: Client)
    ensures r.connected == c.connected && r.queue == c.queue && r.delivered == c.delivered
    ensures Consistent(c) ==> Consistent(r)
    ensures c.stream.None? ==> r == c
    ensures c.stream.Some? && outcome.Ok? ==> r.stream == Some(c.stream.value.(shutDown := true)) && r.log == c.log
    ensures c.stream.Some? && outcome.Err? ==>
      r.stream == c.stream && r.log == c.log + [LogEntry(c.logSink, Error, "unable to shutdown stream: " + outcome.error)]
  {
    if c.stream.None? then c
    else if outcome.Err? then LogError(c, "unable to shutdown stream: " + outcome.error)
    else c.(stream := Some(c.stream.value.(shutDown := true)))
  }

  /** `~Client`: closes the client, so a client that still has its stream
      shuts it down, or logs why it could not; nothing else is released. */
  function Dispose(c: Client, outcome: Result<(), string>): (r: Client)
    ensures r.connected == c.connected && r.queue == c.queue && r.stream.Some? == c.stream.Some?
    ensures c.stream.Some? ==> (r.stream.value.shutDown <==> c.stream.value.shutDown || outcome.Ok?)
    ensures c.stream.Some? ==> (|r.log| == |c.log| <==> outcome.Ok?)
    ensures c.stream.None? || outcome.Ok? ==> r.log == c.log
    ensures c.stream.Some? && outcome.Err? ==>
      r.log == c.log + [LogEntry(c.logSink, Error, "unable to shutdown stream: " + outcome.error)]
  {
    Close(c, outcome)
  }

  // ---------------------------------------------------------------------
  // The flush

  /** The frames of `messages`, back to back. */
  function Frames(messages: seq<string>, keys: seq<MaskKey>): bytes
    requires |keys| == |messages|
  {
    if messages == [] then [] else MessageFrame(messages[0], keys[0]) + Frames(messages[1..], keys[1..])
  }

  /** Two facts about sequences, stated over plain arguments so that the
      flush proof does not meet them as long concatenations. */
  lemma PrefixTransitive<T>(a: seq<T>, b: seq<T>, c: seq<T>)
    requires |a| <= |b| <= |c| && b[..|a|] == a && c[..|b|] == b
    ensures c[..|a|] == a
  {
    assert c[..|b|][..|a|] == c[..|a|];
  }

  lemma AppendAssociative(a: bytes, b: bytes, c: bytes)
    ensures a + b + c == a + (b + c)
  {
  }

  /** The flush after the handshake: `send` for each of `messages` in
      order, with one masking key each. The client is connected by then, so
      every message goes out as a frame, each in one `send` call on the
      stream; the queue itself is left as is. */
  function Flush(c: Client, messages: seq<string>, keys: seq<MaskKey>): (r: Client)
    requires Consistent(c) && c.connected && |keys| == |messages|
    ensures Consistent(r) && r.connected && r.queue == c.queue && r.delivered == c.delivered
    ensures r.messageSink == c.messageSink && r.logSink == c.logSink && r.aborted == c.aborted
    ensures r.stream.value.incoming == c.stream.value.incoming
    ensures r.stream.value.outgoing.script == Drop(c.stream.value.outgoing.script, |messages|)
    ensures |c.log| <= |r.log| <= |c.log| + |messages| && r.log[..|c.log|] == c.log
    ensures c.stream.value.outgoing.script == [] ==>
      && r.stream.value.outgoing.accepted == c.stream.value.outgoing.accepted + Frames(messages, keys)
      && r.log == c.log
    decreases |messages|
  {
    if messages == [] then c
    else
      var sent := Send(c, messages[0], keys[0]);
      var r := Flush(sent, messages[1..], keys[1..]);
      DropDrop(c.stream.value.outgoing.script, |messages| - 1);
      PrefixTransitive(c.log, sent.log, r.log);
      if c.stream.value.outgoing.script == [] then
        SendOnOpenStream(c, messages[0], keys[0]);
        AppendAssociative(c.stream.value.outgoing.accepted, MessageFrame(messages[0], keys[0]), Frames(messages[1..], keys[1..]));
        r
      else r
  }

  /** Every message of `messages` has at most 125 octets, the sizes the
      client's frames carry correctly. */
  predicate Short(messages: seq<string>)
  {
    forall i :: 0 <= i < |messages| ==> |messages[i]| <= 125
  }

  /** The frames of messages written back to back read back as the same
      messages, in the same order. */
  lemma {:induction false} FramesReadBackInOrder(messages: seq<string>, keys: seq<MaskKey>)
    requires |keys| == |messages| && Short(messages)
    ensures var (frames, stop) := DecodeStream(Frames(messages, keys));
      && stop == Header && |frames| == |messages|
      && forall i :: 0 <= i < |messages| ==> frames[i] == Frame(true, 1, true, Octets(messages[i]))
    decreases |messages|
  {
    if messages != [] {
      var first := MessageFrame(messages[0], keys[0]);
      var rest := Frames(messages[1..], keys[1..]);
      EncodeDecodeRoundTrip(Octets(messages[0]), keys[0], rest);
      assert (first + rest)[|first|..] == rest;
      FramesReadBackInOrder(messages[1..], keys[1..]);
    }
  }

  // ---------------------------------------------------------------------
  // The watcher

  /** The response buffer holds 4096 characters and the read leaves room
      for one more. */
  const ResponseCapacity: nat := 4095

  /** How the handshake ended. */
  datatype Greeting = RequestFailed(reason: string) | ResponseFailed(reason: string) | Rejected | Accepted

  /** The handshake on the stream: a single `send` of the request (a short
      count goes unnoticed), a single `receive` of at most 4095 octets, and
      the status check on what arrived. */
  function Greet(link: Link, request: string): (r: (Greeting, Link))
    ensures r.1.shutDown == link.shutDown
    ensures r.0 == Accepted ==>
      exists n: nat :: n <= ResponseCapacity && n <= |link.incoming.pending| && Accepts(Text(link.incoming.pending[..n]))
    ensures link.outgoing.script == [] ==>
      !r.0.RequestFailed? && r.1.outgoing == Outbound(link.outgoing.accepted + Octets(request), [])
    ensures var s := NextStep(link.outgoing.script, |Octets(request)|);
      && (r.0.RequestFailed? <==> s.Failure?)
      && (s.Failure? ==> r.0 == RequestFailed(s.reason) && r.1.incoming == link.incoming)
    ensures var s := NextStep(link.outgoing.script, |Octets(request)|);
      var t := NextStep(link.incoming.script, ResponseCapacity);
      s.Chunk? ==>
        && (r.0.ResponseFailed? <==> t.Failure?)
        && (t.Failure? ==> r.0 == ResponseFailed(t.reason) && r.1.incoming.pending == link.incoming.pending)
    ensures var s := NextStep(link.outgoing.script, |Octets(request)|);
      var t := NextStep(link.incoming.script, ResponseCapacity);
      s.Chunk? && t.Chunk? ==>
        var n := Min(Min(t.limit, ResponseCapacity), |link.incoming.pending|);
        && (r.0 == Accepted <==> Accepts(Text(link.incoming.pending[..n])))
        && (r.0 == Accepted || r.0 == Rejected)
        && r.1.incoming.pending == link.incoming.pending[n..]
  {
    var (sent, out) := BaseTransport.Send(link.outgoing, Octets(request));
    var afterSend := link.(outgoing := out);
    if sent.Err? then (RequestFailed(sent.error), afterSend)
    else
      var (got, inb) := Receive(afterSend.incoming, ResponseCapacity);
      var afterReceive := afterSend.(incoming := inb);
      if got.Err? then (ResponseFailed(got.error), afterReceive)
      else
        assert got.value == link.incoming.pending[..|got.value|];
        if Accepts(Text(got.value)) then (Accepted, afterReceive)
        else (Rejected, afterReceive)
  }

  /** On a connection that takes every write and reads as much as it has,
      the whole request goes out, the response is the first 4095 octets the
      server sent, and the handshake succeeds exactly when they contain the
      status line's prefix "HTTP/1.1 101". */
  lemma {:induction false} GreetOnOpenConnection(link: Link, request: string)
    requires link.outgoing.script == [] && link.incoming.script == []
    ensures var (greeting, after) := Greet(link, request);
      var response := Text(link.incoming.pending[..Min(ResponseCapacity, |link.incoming.pending|)]);
      && after.outgoing.accepted == link.outgoing.accepted + Octets(request)
      && after.incoming.pending == link.incoming.pending[Min(ResponseCapacity, |link.incoming.pending|)..]
      && (greeting == Accepted <==> Find(response, UpgradeStatus).Some?)
      && (greeting == Accepted || greeting == Rejected)
  {
    var pending := link.incoming.pending;
    var n := Min(ResponseCapacity, |pending|);
    assert Octets(request)[..|Octets(request)|] == Octets(request);
    AcceptsIffContains(Text(pending[..n]));
  }

  /** The verdict rests on the first read alone: when that read moves
      fewer octets than the status text has, the handshake is rejected,
      even though the server sent a complete 101 response that the next
      read would have completed. */
  lemma {:induction false} SplitResponseRejected(link: Link, request: string)
    requires link.outgoing.script == [] && Accepts(Text(link.incoming.pending))
    requires link.incoming.script != [] && link.incoming.script[0].Chunk?
    requires link.incoming.script[0].limit < |UpgradeStatus|
    ensures Greet(link, request).0 == Rejected
  {
    var t := link.incoming.script[0];
    var n := Min(Min(t.limit, ResponseCapacity), |link.incoming.pending|);
    ShortTextRejected(Text(link.incoming.pending[..n]));
  }

  /** No text shorter than the status text contains it. */
  lemma ShortTextRejected(response: string)
    requires |response| < |UpgradeStatus|
    ensures !Accepts(response)
  {
    AcceptsIffContains(response);
  }

  /** The handshake read takes whatever the server has sent, up to 4095
      octets: frames that arrive together with the response are consumed
      with it and never reach the frame reader. */
  lemma {:induction false} EarlyFramesSwallowed(link: Link, request: string, response: bytes, frames: bytes)
    requires link.outgoing.script == [] && link.incoming.script == []
    requires link.incoming.pending == response + frames && |response + frames| <= ResponseCapacity
    ensures Greet(link, request).1.incoming.pending == []
  {
  }

  // ---------------------------------------------------------------------
  // The handshake read as section 4.1 of RFC 6455 intends it

  /** The empty line that ends the response's header block. */
  const HeadEnd: bytes := [13, 10, 13, 10]

  /** `got` ends with the empty line. */
  predicate EndsHead(got: bytes)
  {
    |got| >= |HeadEnd| && got[|got| - |HeadEnd|..] == HeadEnd
  }

  /** A complete response head that fits the buffer: it ends with the
      empty line and no shorter prefix of it does. */
  predicate IsHead(response: bytes)
  {
    && |response| <= ResponseCapacity && EndsHead(response)
    && forall k :: 0 <= k < |response| ==> !EndsHead(response[..k])
  }

  /** Reads one octet at a time, after the `got` octets already read, until
      the head ends or the buffer is full; what follows stays unread. */
  function ReadHead(src: Inbound, got: bytes): (r: (Result<bytes, string>, Inbound))
    requires |got| <= ResponseCapacity
    decreases ResponseCapacity - |got|
  {
    if EndsHead(got) || |got| == ResponseCapacity then (Ok(got), src)
    else
      var (one, next) := Receive(src, 1);
      if one.Err? then (Err(one.error), next)
      else if one.value == [] then (Err(ClosedReceiving), next)
      else ReadHead(next, got + one.value)
  }

  /** What `ReadHead` returns extends `got` by the front of the pending
      octets, within the buffer, and the rest stays pending. */
  lemma {:induction false} ReadHeadSplits(src: Inbound, got: bytes)
    requires |got| <= ResponseCapacity
    ensures var r := ReadHead(src, got);
      r.0.Ok? ==> got <= r.0.value && |r.0.value| <= ResponseCapacity && src.pending == r.0.value[|got|..] + r.1.pending
    decreases ResponseCapacity - |got|
  {
    if !(EndsHead(got) || |got| == ResponseCapacity) {
      var (one, next) := Receive(src, 1);
      if one.Ok? && one.value != [] {
        ReadHeadSplits(next, got + one.value);
        var r := ReadHead(next, got + one.value);
        if r.0.Ok? {
          ExtendSplit(got, one.value, r.0.value, src.pending, next.pending, r.1.pending);
        }
      }
    }
  }

  /** Reading `one` and then what follows it is reading their join. */
  lemma ExtendSplit(got: bytes, one: bytes, value: bytes, pending: bytes, next: bytes, last: bytes)
    requires got + one <= value && pending == one + next && next == value[|got + one|..] + last
    ensures got <= value && pending == value[|got|..] + last
  {
    assert value[|got|..] == one + value[|got + one|..];
  }

  /** On a never-failing connection the head is read whole, whatever the
      chunking, and exactly what follows it stays pending. */
  lemma {:induction false} ReadHeadExact(src: Inbound, got: bytes, response: bytes, rest: bytes)
    requires Clean(src.script) && IsHead(response)
    requires |got| <= |response| && got == response[..|got|]
    requires src.pending == response[|got|..] + rest
    ensures ReadHead(src, got).0 == Ok(response) && ReadHead(src, got).1.pending == rest
    decreases |response| - |got|
  {
    if |got| == |response| {
      assert got == response;
    } else {
      assert !EndsHead(response[..|got|]);
      var (one, next) := Receive(src, 1);
      assert one.value == [response[|got|]];
      DropStep(src.script, 0);
      assert Drop(src.script, 0) == src.script;
      assert got + one.value == response[..|got| + 1];
      assert next.pending == response[|got| + 1..] + rest;
      ReadHeadExact(next, got + one.value, response, rest);
    }
  }

  /** The handshake with the head read to its end: the same request, then
      the status check on the whole head. */
  function GreetCorrected(link: Link, request: string): (r: (Greeting, Link))
    ensures r.1.shutDown == link.shutDown
    ensures r.0 == Accepted ==>
      exists n: nat :: n <= ResponseCapacity && n <= |link.incoming.pending| && Accepts(Text(link.incoming.pending[..n]))
  {
    var (sent, out) := BaseTransport.Send(link.outgoing, Octets(request));
    var afterSend := link.(outgoing := out);
    if sent.Err? then (RequestFailed(sent.error), afterSend)
    else
      var (got, inb) := ReadHead(afterSend.incoming, []);
      ReadHeadSplits(afterSend.incoming, []);
      var afterReceive := afterSend.(incoming := inb);
      if got.Err? then (ResponseFailed(got.error), afterReceive)
      else
        assert got.value == link.incoming.pending[..|got.value|];
        if Accepts(Text(got.value)) then (Accepted, afterReceive)
        else (Rejected, afterReceive)
  }

  /** On a never-failing connection, whatever sizes the reads come in, the
      verdict is the status check on the whole head, and the octets after
      the head (frames the server sent at once) are left to the frame
      reader. */
  lemma GreetCorrectedReadsHead(link: Link, request: string, response: bytes, rest: bytes)
    requires link.outgoing.script == [] && Clean(link.incoming.script)
    requires IsHead(response) && link.incoming.pending == response + rest
    ensures var (greeting, after) := GreetCorrected(link, request);
      && (greeting == Accepted <==> Accepts(Text(response)))
      && (greeting == Accepted || greeting == Rejected)
      && after.incoming.pending == rest
  {
    assert response[..0] == [];
    ReadHeadExact(link.incoming, [], response, rest);
  }

  /** The entry the failure of a frame read leaves, by stage (with the
      program's "receieve" spelling): "unable to ", the stage, and ": "
      before the reason. */
  function StageMessage(stage: Stage): (prefix: string)
    ensures |prefix| > 12 && prefix[..10] == "unable to " && prefix[|prefix| - 2..] == ": "
  {
    match stage
    case Header => "unable to receieve message: "
    case ExtendedLength => "unable to get length: "
    case MaskingKey => "unable to get masking key: "
    case Payload => "unable to receieve payload: "
  }

  /** Each stage has its own text, so the log tells where a frame read
      failed. */
  lemma StageMessageInjective(a: Stage, b: Stage)
    requires StageMessage(a) == StageMessage(b)
    ensures a == b
  {
    assert StageMessage(a)[10] == StageMessage(b)[10];
    assert StageMessage(a)[14] == StageMessage(b)[14];
  }

  /** The handshake step of the watcher: logs how it ended and sets the
      flag only on acceptance. */
  function Upgrade(c: Client, request: string): (r: Client)
    requires c.stream.Some?
    ensures var (greeting, link) := Greet(c.stream.value, request);
      && r.stream == Some(link)
      && (r.connected <==> c.connected || greeting == Accepted)
      && r.queue == c.queue && r.delivered == c.delivered && r.aborted == c.aborted
      && r.messageSink == c.messageSink && r.logSink == c.logSink
      && |r.log| == |c.log| + 1 && r.log[..|c.log|] == c.log
      && r.log[|c.log|].severity == (if greeting == Accepted then Info else Error)
  {
    var (greeting, link) := Greet(c.stream.value, request);
    var c' := c.(stream := Some(link));
    match greeting
    case RequestFailed(e) => LogError(c', "unable to send handshake request: " + e)
    case ResponseFailed(e) => LogError(c', "unable to receive handshake response: " + e)
    case Rejected => LogError(c', "handshake did NOT succeed...")
    case Accepted => LogInfo(c', "handshake complete; watching for messages...").(connected := true)
  }

  /** The flag `isConnected` reports is set by an accepted handshake and by
      nothing else, and no operation of the client ever clears it. */
  lemma OnlyHandshakeConnects(c: Client, address: ServerAddress, connect: Result<Link, string>,
                              data: string, key: MaskKey, outcome: Result<(), string>,
                              id: nat, severity: LogSeverity, text: string, request: string)
    requires Consistent(c)
    ensures IsConnected(Open(c, address, connect)) == IsConnected(c)
    ensures IsConnected(Send(c, data, key)) == IsConnected(c)
    ensures IsConnected(Close(c, outcome)) == IsConnected(c)
    ensures IsConnected(Dispose(c, outcome)) == IsConnected(c)
    ensures IsConnected(OnMessage(c, id)) == IsConnected(c) && IsConnected(OnLog(c, id)) == IsConnected(c)
    ensures IsConnected(Log(c, severity, text)) == IsConnected(c)
    ensures c.stream.Some? ==>
      (IsConnected(Upgrade(c, request)) <==> IsConnected(c) || Greet(c.stream.value, request).0 == Accepted)
  {
  }

  /** What the message callback receives for each frame. */
  function Deliveries(sink: MessageSink, frames: seq<Frame>): (ds: seq<Delivery>)
    ensures |ds| == |frames|
  {
    if frames == [] then [] else Deliveries(sink, frames[..|frames| - 1]) + [Delivery(sink, Text(frames[|frames| - 1].payload))]
  }

  lemma {:induction false} DeliveriesSnoc(sink: MessageSink, frames: seq<Frame>, frame: Frame)
    ensures Deliveries(sink, frames + [frame]) == Deliveries(sink, frames) + [Delivery(sink, Text(frame.payload))]
  {
    assert (frames + [frame])[..|frames|] == frames;
  }

  /** The watcher's frame loop: read a frame and hand its payload to the
      message callback, again and again. The loop's condition, the flag, is
      never reset, so the loop ends only when a read fails, with the stage's
      message logged, or when there is no message callback to call. `seen`
      is the frames read, a prefix of the stream's frames on any peer. */
  method ReceiveLoop(c: Client) returns (r: Client, seen: seq<Frame>)
    requires c.connected && c.stream.Some? && !c.aborted
    ensures r.connected && r.queue == c.queue && r.stream.Some?
    ensures r.stream.value.outgoing == c.stream.value.outgoing
    ensures r.messageSink == c.messageSink && r.logSink == c.logSink
    ensures seen <= DecodeStream(c.stream.value.incoming.pending).0
    ensures |c.log| <= |r.log| <= |c.log| + 1 && r.log[..|c.log|] == c.log
    ensures c.messageSink.MessageHandler? ==>
      && r.delivered == c.delivered + Deliveries(c.messageSink, seen)
      && |r.log| == |c.log| + 1
      && r.log[|c.log|].sink == c.logSink && r.log[|c.log|].severity == Error
      && !r.aborted
    ensures Clean(c.stream.value.incoming.script) && c.messageSink.MessageHandler? ==>
      seen == DecodeStream(c.stream.value.incoming.pending).0
    ensures Clean(c.stream.value.incoming.script) && c.messageSink.MessageHandler? ==>
      var (frames, stop) := DecodeStream(c.stream.value.incoming.pending);
      && r.delivered == c.delivered + Deliveries(c.messageSink, frames)
      && r.log == c.log + [LogEntry(c.logSink, Error, StageMessage(stop) + ClosedReceiving)]
      && !r.aborted
    ensures c.messageSink.NoMessageHandler? ==> r.delivered == c.delivered
    ensures Clean(c.stream.value.incoming.script) && c.messageSink.NoMessageHandler? ==>
      (r.aborted <==> DecodeStream(c.stream.value.incoming.pending).0 != [])
  {
    var start := c.stream.value.incoming;
    var link := c.stream.value;
    seen := [];
    r := c;
    assert [] + DecodeStream(start.pending).0 == DecodeStream(start.pending).0;
    assert ReadSoFar(start.pending, seen, link.incoming.pending);
    while IsConnected(r)
      invariant r == c.(stream := Some(link), delivered := c.delivered + Deliveries(c.messageSink, seen))
      invariant link.outgoing == c.stream.value.outgoing
      invariant Clean(start.script) ==> Clean(link.incoming.script)
      invariant ReadSoFar(start.pending, seen, link.incoming.pending)
      invariant c.messageSink.NoMessageHandler? ==> seen == []
      decreases |link.incoming.pending|
    {
      var before := link.incoming;
      var read, taken, rest := ReadFrame(before);
      link := link.(incoming := rest);
      r := r.(stream := Some(link));
      match read {
        case Err(failure) =>
          if Clean(start.script) {
            ReadSoFarEnd(start.pending, seen, before.pending);
          }
          r := LogError(r, StageMessage(failure.stage) + failure.reason);
          assert seen + DecodeStream(before.pending).0 == DecodeStream(start.pending).0;
          return;
        case Ok(frame) =>
          ReadSoFarStep(start.pending, seen, before.pending, frame, |taken|);
          assert before.pending[|taken|..] == rest.pending;
          if r.messageSink.NoMessageHandler? {
            r := r.(aborted := true);
            return;
          }
          DeliveriesSnoc(c.messageSink, seen, frame);
          seen := seen + [frame];
          r := r.(delivered := c.delivered + Deliveries(c.messageSink, seen));
      }
    }
    assert false;
  }

  /** `watch`, started by a successful `open`: the handshake; on acceptance
      the flag is set, the queue is flushed with one masking key per queued
      message, and the frame loop runs. `seen` is the frames the loop read. */
  method Watch(c: Client, nonce: Nonce, base64: bytes -> string, keys: seq<MaskKey>) returns (r: Client, seen: seq<Frame>)
    requires !c.connected && c.stream.Some? && !c.aborted && |keys| == |c.queue|
    ensures Consistent(r) && r.queue == c.queue
    ensures r.connected <==> Greet(c.stream.value, Request(c.address, nonce, base64)).0 == Accepted
    ensures !r.connected ==> r.delivered == c.delivered && !r.aborted
    ensures r.messageSink == c.messageSink && r.logSink == c.logSink
    ensures |r.log| > |c.log| && r.log[..|c.log|] == c.log
    ensures var after := Greet(c.stream.value, Request(c.address, nonce, base64)).1;
      r.connected && c.messageSink.MessageHandler? ==>
        && seen <= DecodeStream(after.incoming.pending).0
        && r.delivered == c.delivered + Deliveries(c.messageSink, seen)
        && (Clean(after.incoming.script) ==> seen == DecodeStream(after.incoming.pending).0)
    ensures r.connected && c.stream.value.outgoing.script == [] ==>
      r.stream.value.outgoing.accepted
        == c.stream.value.outgoing.accepted + Octets(Request(c.address, nonce, base64)) + Frames(c.queue, keys)
  {
    var upgraded := Upgrade(c, Request(c.address, nonce, base64));
    r, seen := upgraded, [];
    if !r.connected {
      return;
    }
    var flushed := Flush(r, r.queue, keys);
    PrefixTransitive(c.log, upgraded.log, flushed.log);
    r, seen := ReceiveLoop(flushed);
    PrefixTransitive(c.log, flushed.log, r.log);
  }
}

=== FILE: frame_codec.dfy ===
/** The WebSocket frame codec of the client (section 5.2 and section 5.3 of
    RFC 6455): the encoder the client uses for every outgoing text message,
    the decoder the watcher runs on every incoming frame, and a reference
    serializer for every header form the decoder accepts. */
module FrameCodec {
  import opened Bytes
  import opened Results

  /** The four masking-key octets. */
  type MaskKey = k: bytes | |k| == 4 witness [0, 0, 0, 0]

  /** Masking: octet i of the payload is combined with key octet i mod 4. */
  function Mask(payload: bytes, key: MaskKey): (r: bytes)
    ensures |r| == |payload|
  {
    seq(|payload|, i requires 0 <= i < |payload| => Xor(payload[i], key[i % 4]))
  }

  /** Masking twice with the same key gives the payload back, so the
      receiver's unmasking recovers what the sender masked. */
  lemma MaskInvolution(payload: bytes, key: MaskKey)
    ensures Mask(Mask(payload, key), key) == payload
  {
    forall i | 0 <= i < |payload| ensures Mask(Mask(payload, key), key)[i] == payload[i] {
      XorSelfInverse(payload[i], key[i % 4]);
    }
  }

  // ---------------------------------------------------------------------
  // Encoding (the client's outgoing frames)

  /** `createMessageFrame`: FIN with the text opcode, the mask bit over the
      message size truncated to one octet, the key, the masked message. The
      size always goes in the 7-bit field, whatever it is. */
  function EncodeMessage(message: bytes, key: MaskKey): (frame: bytes)
    ensures |frame| == 6 + |message|
    ensures HighBit(frame[1]) && Low7(frame[1]) == |message| % 128
  {
    [0x80 + 0x01, SetHighBit(|message| % 256)] + key + Mask(message, key)
  }

  /** Every octet of the encoded frame, and that the masked octets are the
      message octets combined with the key. */
  lemma EncodeMessageLayout(message: bytes, key: MaskKey)
    ensures var frame := EncodeMessage(message, key);
      && frame[0] == 0x81
      && frame[1] == 0x80 + |message| % 128
      && frame[2..6] == key
      && (forall i :: 0 <= i < |message| ==> frame[6 + i] == Xor(message[i], key[i % 4]))
  {
    var frame := EncodeMessage(message, key);
    assert frame[6..] == Mask(message, key);
    forall i | 0 <= i < |message| ensures frame[6 + i] == Xor(message[i], key[i % 4]) {
      assert frame[6 + i] == frame[6..][i];
    }
  }

  // ---------------------------------------------------------------------
  // Decoding (the watcher's loop body)

  datatype Frame = Frame(fin: bool, opcode: nat, masked: bool, payload: bytes)

  /** Which read ran out of input. */
  datatype Stage = Header | ExtendedLength | MaskingKey | Payload

  datatype Decoding = Decoded(frame: Frame, consumed: nat) | Truncated(stage: Stage)

  /** How many octets of extended length follow a 7-bit length code. */
  function ExtendedLengthSize(code: nat): nat
  {
    if code == 126 then 2 else if code == 127 then 8 else 0
  }

  /** Decodes the frame at the start of `input`: two header octets, the
      extended length if the 7-bit code asks for one, the key if the mask bit
      is set, then the payload, unmasked. Opcode and FIN are reported but do
      not change how the frame is read. */
  function DecodeFrame(input: bytes): (r: Decoding)
    ensures r.Decoded? ==> 2 <= r.consumed <= |input| && r.frame.opcode < 16
  {
    if |input| < 2 then Truncated(Header)
    else
      var code := Low7(input[1]);
      var masked := HighBit(input[1]);
      var extEnd := 2 + ExtendedLengthSize(code);
      if |input| < extEnd then Truncated(ExtendedLength)
      else
        var len := if extEnd == 2 then code else BigEndian(input[2..extEnd]);
        var keyEnd := extEnd + (if masked then 4 else 0);
        if |input| < keyEnd then Truncated(MaskingKey)
        else if |input| - keyEnd < len then Truncated(Payload)
        else
          var raw := input[keyEnd..keyEnd + len];
          var payload := if masked then Mask(raw, input[extEnd..keyEnd]) else raw;
          Decoded(Frame(HighBit(input[0]), LowNibble(input[0]), masked, payload), keyEnd + len)
  }

  // ---------------------------------------------------------------------
  // Reference serializer: every header form of section 5.2 of RFC 6455

  /** Where the payload length goes: the 7-bit code itself, or a 16- or
      64-bit big-endian extension announced by code 126 or 127. */
  datatype LengthForm = Inline | Extended16 | Extended64

  predicate Fits(form: LengthForm, n: nat)
  {
    match form
    case Inline => n <= 125
    case Extended16 => n < Pow256(2)
    case Extended64 => n < Pow256(8)
  }

  datatype WireFrame = WireFrame(fin: bool, opcode: nat, key: Option<MaskKey>, form: LengthForm, payload: bytes)
  {
    predicate Valid()
    {
      opcode < 16 && Fits(form, |payload|)
    }
  }

  function LengthCode(form: LengthForm, n: nat): nat
  {
    match form
    case Inline => n
    case Extended16 => 126
    case Extended64 => 127
  }

  function LengthExtension(form: LengthForm, n: nat): bytes
  {
    match form
    case Inline => []
    case Extended16 => ToBigEndian(n, 2)
    case Extended64 => ToBigEndian(n, 8)
  }

  /** FIN bit and opcode. */
  function FirstOctet(w: WireFrame): byte
    requires w.Valid()
  {
    (if w.fin then 0x80 else 0) + w.opcode
  }

  /** Mask bit and length code. */
  function SecondOctet(w: WireFrame): byte
    requires w.Valid()
  {
    (if w.key.Some? then 0x80 else 0) + LengthCode(w.form, |w.payload|)
  }

  function KeyOctets(w: WireFrame): bytes
  {
    if w.key.Some? then w.key.value else []
  }

  /** The payload as it travels: masked when there is a key. */
  function WireBody(w: WireFrame): bytes
  {
    if w.key.Some? then Mask(w.payload, w.key.value) else w.payload
  }

  function Serialize(w: WireFrame): (bs: bytes)
    requires w.Valid()
  {
    [FirstOctet(w), SecondOctet(w)] + LengthExtension(w.form, |w.payload|) + KeyOctets(w) + WireBody(w)
  }

  /** Octets taken by the extension and key of a frame. */
  function OverheadAfterHeader(w: WireFrame): nat
  {
    |LengthExtension(w.form, |w.payload|)| + (if w.key.Some? then 4 else 0)
  }

  lemma SerializeLength(w: WireFrame)
    requires w.Valid()
    ensures |Serialize(w)| == 2 + OverheadAfterHeader(w) + |w.payload|
  {
  }

  /** Where each part sits in a header, an extension, a key, a body and
      what follows, written back to back. */
  lemma {:induction false} PartsLayout(b0: byte, b1: byte, ext: bytes, keyBytes: bytes, body: bytes, rest: bytes)
    ensures var input := [b0, b1] + ext + keyBytes + body + rest;
      var extEnd := 2 + |ext|;
      var keyEnd := extEnd + |keyBytes|;
      && |input| == keyEnd + |body| + |rest|
      && input[0] == b0 && input[1] == b1
      && input[2..extEnd] == ext
      && input[extEnd..keyEnd] == keyBytes
      && input[keyEnd..keyEnd + |body|] == body
  {
    var input := [b0, b1] + ext + keyBytes + body + rest;
    var extEnd := 2 + |ext|;
    var keyEnd := extEnd + |keyBytes|;
    assert input[2..extEnd] == ext;
    assert input[extEnd..keyEnd] == keyBytes;
    assert input[keyEnd..keyEnd + |body|] == body;
  }

  /** What the decoder makes of a header, an extension, a key (empty when
      the mask bit is clear) and a body whose length matches what the header
      announces. */
  lemma {:induction false} DecodeParts(b0: byte, b1: byte, ext: bytes, keyBytes: bytes, body: bytes, rest: bytes)
    requires |ext| == ExtendedLengthSize(Low7(b1))
    requires |keyBytes| == if HighBit(b1) then 4 else 0
    requires |body| == if ext == [] then Low7(b1) else BigEndian(ext)
    ensures DecodeFrame([b0, b1] + ext + keyBytes + body + rest)
         == Decoded(Frame(HighBit(b0), LowNibble(b0), HighBit(b1), if HighBit(b1) then Mask(body, keyBytes) else body),
                    2 + |ext| + |keyBytes| + |body|)
  {
    PartsLayout(b0, b1, ext, keyBytes, body, rest);
  }

  /** The header octets of a frame carry its FIN bit, opcode, mask bit and
      length code, and the extension holds the payload length. */
  lemma {:induction false} HeaderFields(w: WireFrame)
    requires w.Valid()
    ensures && HighBit(FirstOctet(w)) == w.fin && LowNibble(FirstOctet(w)) == w.opcode
            && HighBit(SecondOctet(w)) == w.key.Some? && Low7(SecondOctet(w)) == LengthCode(w.form, |w.payload|)
            && |LengthExtension(w.form, |w.payload|)| == ExtendedLengthSize(Low7(SecondOctet(w)))
            && |w.payload| == if LengthExtension(w.form, |w.payload|) == [] then Low7(SecondOctet(w))
                              else BigEndian(LengthExtension(w.form, |w.payload|))
  {
    var n := |w.payload|;
    match w.form {
      case Inline =>
      case Extended16 => BigEndianRoundTrip(n, 2);
      case Extended64 => BigEndianRoundTrip(n, 8);
    }
  }

  /** The decoder reads back every well-formed frame, in every length form,
      masked or not, whatever follows it, and consumes exactly its octets. */
  lemma {:induction false} DecodeSerialized(w: WireFrame, rest: bytes)
    requires w.Valid()
    ensures DecodeFrame(Serialize(w) + rest)
         == Decoded(Frame(w.fin, w.opcode, w.key.Some?, w.payload), |Serialize(w)|)
  {
    HeaderFields(w);
    DecodeParts(FirstOctet(w), SecondOctet(w), LengthExtension(w.form, |w.payload|), KeyOctets(w), WireBody(w), rest);
    if w.key.Some? {
      MaskInvolution(w.payload, w.key.value);
    }
  }

  /** Input cut short before the end of the frame at its start does not
      decode. */
  lemma {:induction false} CutFrameTruncated(input: bytes, k: nat)
    requires DecodeFrame(input).Decoded? && k < DecodeFrame(input).consumed
    ensures DecodeFrame(input[..k]).Truncated?
  {
    var p := input[..k];
    if k >= 2 {
      assert p[1] == input[1];
      var extEnd := 2 + ExtendedLengthSize(Low7(input[1]));
      if k >= extEnd {
        assert p[2..extEnd] == input[2..extEnd];
      }
    }
  }

  /** No proper prefix of a frame decodes: a frame cut short anywhere is
      reported as truncated, never as a shorter message. */
  lemma {:induction false} ProperPrefixTruncated(w: WireFrame, k: nat)
    requires w.Valid() && k < |Serialize(w)|
    ensures DecodeFrame(Serialize(w)[..k]).Truncated?
  {
    var bs := Serialize(w);
    DecodeSerialized(w, []);
    assert bs + [] == bs;
    CutFrameTruncated(bs, k);
  }

  // ---------------------------------------------------------------------
  // The client's frames

  /** For messages of at most 125 octets the encoder writes a masked, final
      text frame with the length inline. */
  lemma EncodeIsInlineFrame(message: bytes, key: MaskKey)
    requires |message| <= 125
    ensures EncodeMessage(message, key) == Serialize(WireFrame(true, 1, Some(key), Inline, message))
  {
  }

  /** Encode then decode: a final, masked text frame carrying the message,
      consuming exactly 6 + |message| octets, whatever follows it. */
  lemma EncodeDecodeRoundTrip(message: bytes, key: MaskKey, rest: bytes)
    requires |message| <= 125
    ensures DecodeFrame(EncodeMessage(message, key) + rest)
         == Decoded(Frame(true, 1, true, message), 6 + |message|)
  {
    EncodeIsInlineFrame(message, key);
    DecodeSerialized(WireFrame(true, 1, Some(key), Inline, message), rest);
  }

  /** The round trip holds exactly for messages of at most 125 octets: a
      longer message gets a 7-bit length code that is not its size, so the
      decoder either reads a different length or takes key octets for an
      extended length. */
  lemma RoundTripIffShort(message: bytes, key: MaskKey)
    ensures DecodeFrame(EncodeMessage(message, key)) == Decoded(Frame(true, 1, true, message), 6 + |message|)
        <==> |message| <= 125
  {
    var frame := EncodeMessage(message, key);
    if |message| <= 125 {
      EncodeDecodeRoundTrip(message, key, []);
      assert frame + [] == frame;
    } else {
      var code := Low7(frame[1]);
      var r := DecodeFrame(frame);
      if r.Decoded? {
        var extEnd := 2 + ExtendedLengthSize(code);
        assert r.consumed == extEnd + 4 + |r.frame.payload|;
        if extEnd == 2 {
          assert |r.frame.payload| == code;
        }
      }
    }
  }

  /** The length form that holds `n`: inline up to 125, then the 16-bit
      extension, then the 64-bit one. */
  function FormFor(n: nat): (form: LengthForm)
    requires n < Pow256(8)
    ensures Fits(form, n)
    ensures form == Inline <==> n <= 125
  {
    if n <= 125 then Inline else if n < Pow256(2) then Extended16 else Extended64
  }

  /** The client's frame with the length written in the form the size
      needs: the same masked, final text frame, but a message longer than
      125 octets announces a 16- or 64-bit extended length. */
  function EncodeMessageCorrected(message: bytes, key: MaskKey): (frame: bytes)
    requires |message| < Pow256(8)
    ensures |message| <= 125 ==> frame == EncodeMessage(message, key)
    ensures |frame| >= 6 + |message| && frame[0] == 0x81
    ensures frame[1] == 0x80 + LengthCode(FormFor(|message|), |message|)
  {
    var w := WireFrame(true, 1, Some(key), FormFor(|message|), message);
    if |message| <= 125 then EncodeIsInlineFrame(message, key); Serialize(w) else Serialize(w)
  }

  /** Encode then decode, for every message size a 64-bit length can state:
      a final, masked text frame carrying the message, consuming exactly the
      frame's octets, whatever follows it. */
  lemma {:induction false} CorrectedRoundTrip(message: bytes, key: MaskKey, rest: bytes)
    requires |message| < Pow256(8)
    ensures DecodeFrame(EncodeMessageCorrected(message, key) + rest)
         == Decoded(Frame(true, 1, true, message), |EncodeMessageCorrected(message, key)|)
  {
    DecodeSerialized(WireFrame(true, 1, Some(key), FormFor(|message|), message), rest);
  }

  // ---------------------------------------------------------------------
  // Frame streams

  /** The frames read one after another from the start of `input`, and the
      stage at which the input then runs out. */
  function DecodeStream(input: bytes): (r: (seq<Frame>, Stage))
    decreases |input|
  {
    match DecodeFrame(input)
    case Truncated(stage) => ([], stage)
    case Decoded(frame, n) =>
      var (frames, stop) := DecodeStream(input[n..]);
      ([frame] + frames, stop)
  }

  /** Reading a stream frame by frame: after the frames `seen`, the rest of
      the stream is what `input` decodes to. */
  predicate ReadSoFar(all: bytes, seen: seq<Frame>, input: bytes)
  {
    DecodeStream(all) == (seen + DecodeStream(input).0, DecodeStream(input).1)
  }

  /** One more frame read moves it from the input to the frames seen. */
  lemma {:induction false} ReadSoFarStep(all: bytes, seen: seq<Frame>, input: bytes, frame: Frame, n: nat)
    requires ReadSoFar(all, seen, input) && DecodeFrame(input) == Decoded(frame, n)
    ensures n <= |input| && ReadSoFar(all, seen + [frame], input[n..])
  {
    var rest := DecodeStream(input[n..]);
    assert DecodeStream(input) == ([frame] + rest.0, rest.1);
    assert seen + ([frame] + rest.0) == (seen + [frame]) + rest.0;
  }

  /** When the input no longer holds a whole frame, the frames seen are the
      whole stream, and it ends at the stage where the input ran out. */
  lemma {:induction false} ReadSoFarEnd(all: bytes, seen: seq<Frame>, input: bytes)
    requires ReadSoFar(all, seen, input) && DecodeFrame(input).Truncated?
    ensures DecodeStream(all) == (seen, DecodeFrame(input).stage)
  {
    assert seen + [] == seen;
  }

  predicate AllValid(ws: seq<WireFrame>)
  {
    forall i :: 0 <= i < |ws| ==> ws[i].Valid()
  }

  /** Frames written back to back. */
  function SerializeAll(ws: seq<WireFrame>): bytes
    requires AllValid(ws)
  {
    if ws == [] then [] else Serialize(ws[0]) + SerializeAll(ws[1..])
  }

  /** What a receiver learns from each frame. */
  function Contents(ws: seq<WireFrame>): (fs: seq<Frame>)
    ensures |fs| == |ws|
  {
    if ws == [] then []
    else [Frame(ws[0].fin, ws[0].opcode, ws[0].key.Some?, ws[0].payload)] + Contents(ws[1..])
  }

  /** A stream that starts with a whole frame: that frame, then the rest. */
  lemma {:induction false} StreamCons(input: bytes, frame: Frame, n: nat)
    requires DecodeFrame(input) == Decoded(frame, n)
    ensures DecodeStream(input) == ([frame] + DecodeStream(input[n..]).0, DecodeStream(input[n..]).1)
  {
  }

  /** Frames written back to back are read back one by one, in order, and
      the reader then runs out of input at a frame boundary. */
  lemma {:induction false} DecodeStreamOfSerialized(ws: seq<WireFrame>)
    requires AllValid(ws)
    ensures DecodeStream(SerializeAll(ws)) == (Contents(ws), Header)
    decreases |ws|
  {
    if ws == [] {
      assert DecodeFrame([]) == Truncated(Header);
    } else {
      var first := Serialize(ws[0]);
      var tail := SerializeAll(ws[1..]);
      assert SerializeAll(ws) == first + tail;
      DecodeSerialized(ws[0], tail);
      assert (first + tail)[|first|..] == tail;
      StreamCons(first + tail, Frame(ws[0].fin, ws[0].opcode, ws[0].key.Some?, ws[0].payload), |first|);
      DecodeStreamOfSerialized(ws[1..]);
    }
  }
}

=== FILE: frame_reader.dfy ===
/** The watcher's frame read as it happens on the connection: one exact
    read per stage (header, extended length, masking key, payload), each of
    which can fail on its own. The pure decoder in `FrameCodec` is the
    reference: a read that succeeds agrees with it, and on a connection that
    only ever runs out of data the read fails exactly where the decoder
    reports the input truncated. */
module FrameReader {
  import opened Bytes
  import opened Results
  import opened FrameCodec
  import opened BaseTransport

  /** A failed frame read: the stage whose read failed and the transport's
      reason. */
  datatype ReadError = ReadError(stage: Stage, reason: string)

  // ---------------------------------------------------------------------
  // Where the decoder stops on a short input

  lemma {:induction false} ShortExtension(b0: byte, b1: byte, tail: bytes)
    requires |tail| < ExtendedLengthSize(Low7(b1))
    ensures DecodeFrame([b0, b1] + tail) == Truncated(ExtendedLength)
  {
    var input := [b0, b1] + tail;
    assert input[1] == b1;
  }

  lemma {:induction false} ShortKey(b0: byte, b1: byte, ext: bytes, tail: bytes)
    requires |ext| == ExtendedLengthSize(Low7(b1)) && HighBit(b1) && |tail| < 4
    ensures DecodeFrame([b0, b1] + ext + tail) == Truncated(MaskingKey)
  {
    var input := [b0, b1] + ext + tail;
    assert input[1] == b1;
  }

  lemma {:induction false} ShortPayload(b0: byte, b1: byte, ext: bytes, keyBytes: bytes, tail: bytes)
    requires |ext| == ExtendedLengthSize(Low7(b1))
    requires |keyBytes| == if HighBit(b1) then 4 else 0
    requires |tail| < if ext == [] then Low7(b1) else BigEndian(ext)
    ensures DecodeFrame([b0, b1] + ext + keyBytes + tail) == Truncated(Payload)
  {
    var input := [b0, b1] + ext + keyBytes + tail;
    assert input[1] == b1;
    assert input[2..2 + |ext|] == ext;
  }

  // ---------------------------------------------------------------------
  // The read

  /** The 64-bit length: eight octets shifted in one at a time. */
  method ExtendedLength64(ext: bytes) returns (len: nat)
    requires |ext| == 8
    ensures len == BigEndian(ext) && len < Pow256(8)
  {
    len := 0;
    var i := 0;
    while i < 8
      invariant 0 <= i <= 8 && len == BigEndian(ext[..i]) && len < Pow256(i)
    {
      assert ext[..i + 1][..i] == ext[..i];
      len := len * 256 + ext[i];
      i := i + 1;
    }
    assert ext[..8] == ext;
  }

  /** The extended length, when the 7-bit code `code` announces one: two
      octets for 126, eight for 127, none otherwise; `len` is the payload
      length the header announces. */
  method ReadLength(code: byte, src: Inbound) returns (r: Result<nat, string>, ext: bytes, rest: Inbound)
    requires code < 128
    ensures src.pending == ext + rest.pending && |ext| <= ExtendedLengthSize(code)
    ensures r.Ok? ==> |ext| == ExtendedLengthSize(code) && r.value == if ext == [] then code else BigEndian(ext)
    ensures Clean(src.script) ==> Clean(rest.script)
    ensures Clean(src.script) ==> (r.Ok? <==> ExtendedLengthSize(code) <= |src.pending|)
    ensures Clean(src.script) && r.Err? ==> r.error == ClosedReceiving
  {
    if code != 126 && code != 127 {
      assert ExtendedLengthSize(code) == 0;
      return Ok(code), [], src;
    }
    var res, calls;
    res, ext, rest, calls := ReceiveExact(src, ExtendedLengthSize(code));
    DropStep(src.script, |calls|);
    if res.Err? {
      return Err(res.error), ext, rest;
    }
    var len: nat;
    if code == 126 {
      len := (ext[0] as int) * 256 + ext[1];
      assert ext == [ext[0], ext[1]];
      BigEndianPair(ext[0], ext[1]);
    } else {
      len := ExtendedLength64(ext);
    }
    r := Ok(len);
  }

  /** The masking key, read only when the mask bit is set. */
  method ReadKey(masked: bool, src: Inbound) returns (r: Result<(), string>, keyBytes: bytes, rest: Inbound)
    ensures src.pending == keyBytes + rest.pending && |keyBytes| <= (if masked then 4 else 0)
    ensures r.Ok? ==> |keyBytes| == if masked then 4 else 0
    ensures Clean(src.script) ==> Clean(rest.script)
    ensures Clean(src.script) ==> (r.Ok? <==> (if masked then 4 else 0) <= |src.pending|)
    ensures Clean(src.script) && r.Err? ==> r.error == ClosedReceiving
  {
    if !masked {
      return Ok(()), [], src;
    }
    var calls;
    r, keyBytes, rest, calls := ReceiveExact(src, 4);
    DropStep(src.script, |calls|);
  }

  /** A read that consumed `consumed` octets of `input` and answered `r`
      agrees with the decoder: a frame it returns is the one the decoder
      reads over the same octets, and on a connection that never fails by
      itself (`clean`) it fails exactly where the decoder finds the input
      truncated. */
  predicate Agrees(input: bytes, r: Result<Frame, ReadError>, consumed: nat, clean: bool)
  {
    && (r.Ok? ==> DecodeFrame(input) == Decoded(r.value, consumed))
    && (clean ==>
          match DecodeFrame(input)
          case Decoded(frame, _) => r == Ok(frame)
          case Truncated(stage) => r == Err(ReadError(stage, ClosedReceiving)))
  }

  /** The payload read and the unmasking, after header, extension and key. */
  method ReadPayload(b0: byte, b1: byte, ext: bytes, keyBytes: bytes, len: nat, src: Inbound)
    returns (r: Result<Frame, ReadError>, body: bytes, rest: Inbound)
    requires |ext| == ExtendedLengthSize(Low7(b1)) && |keyBytes| == (if HighBit(b1) then 4 else 0)
    requires len == if ext == [] then Low7(b1) else BigEndian(ext)
    ensures src.pending == body + rest.pending
    ensures Clean(src.script) ==> Clean(rest.script)
    ensures Agrees([b0, b1] + ext + keyBytes + src.pending, r, 2 + |ext| + |keyBytes| + |body|, Clean(src.script))
  {
    var res, calls;
    res, body, rest, calls := ReceiveExact(src, len);
    DropStep(src.script, |calls|);
    if res.Err? {
      if Clean(src.script) {
        ShortPayload(b0, b1, ext, keyBytes, src.pending);
      }
      return Err(ReadError(Payload, res.error)), body, rest;
    }
    var payload := if HighBit(b1) then Mask(body, keyBytes) else body;
    r := Ok(Frame(HighBit(b0), LowNibble(b0), HighBit(b1), payload));
    assert [b0, b1] + ext + keyBytes + src.pending == [b0, b1] + ext + keyBytes + body + rest.pending;
    DecodeParts(b0, b1, ext, keyBytes, body, rest.pending);
  }

  /** The key read (when the mask bit is set), then the payload. */
  method ReadKeyAndPayload(b0: byte, b1: byte, ext: bytes, len: nat, src: Inbound)
    returns (r: Result<Frame, ReadError>, taken: bytes, rest: Inbound)
    requires |ext| == ExtendedLengthSize(Low7(b1))
    requires len == if ext == [] then Low7(b1) else BigEndian(ext)
    ensures src.pending == taken + rest.pending
    ensures Clean(src.script) ==> Clean(rest.script)
    ensures Agrees([b0, b1] + ext + src.pending, r, 2 + |ext| + |taken|, Clean(src.script))
  {
    var key, keyBytes, afterKey;
    key, keyBytes, afterKey := ReadKey(HighBit(b1), src);
    if key.Err? {
      if Clean(src.script) {
        ShortKey(b0, b1, ext, src.pending);
      }
      return Err(ReadError(MaskingKey, key.error)), keyBytes, afterKey;
    }
    var body;
    r, body, rest := ReadPayload(b0, b1, ext, keyBytes, len, afterKey);
    taken := keyBytes + body;
    assert [b0, b1] + ext + src.pending == [b0, b1] + ext + keyBytes + afterKey.pending;
  }

  /** One iteration of the watcher's receive loop up to the point where the
      payload is handed on: exact reads of the two header octets, of the 2-
      or 8-octet length when the 7-bit code is 126 or 127, of the key when
      the mask bit is set, and of the payload, which is then unmasked.
      `taken` is what the reads consumed, on failure too. */
  method ReadFrame(src: Inbound) returns (r: Result<Frame, ReadError>, taken: bytes, rest: Inbound)
    ensures src.pending == taken + rest.pending
    ensures Clean(src.script) ==> Clean(rest.script)
    ensures Agrees(src.pending, r, |taken|, Clean(src.script))
  {
    var res, header, afterHeader, calls;
    res, header, afterHeader, calls := ReceiveExact(src, 2);
    DropStep(src.script, |calls|);
    if res.Err? {
      return Err(ReadError(Header, res.error)), header, afterHeader;
    }
    var b0, b1 := header[0], header[1];
    assert src.pending == [b0, b1] + afterHeader.pending;

    var length, ext, afterLength;
    length, ext, afterLength := ReadLength(Low7(b1), afterHeader);
    if length.Err? {
      if Clean(src.script) {
        ShortExtension(b0, b1, afterHeader.pending);
      }
      return Err(ReadError(ExtendedLength, length.error)), header + ext, afterLength;
    }
    var tail;
    r, tail, rest := ReadKeyAndPayload(b0, b1, ext, length.value, afterLength);
    taken := header + ext + tail;
    assert src.pending == [b0, b1] + ext + afterLength.pending;
  }
}

=== FILE: handshake.dfy ===
/** The opening handshake as the client performs it: the HTTP Upgrade
    request it writes (section 4.1 of RFC 6455, as far as this client goes)
    and the single substring test it applies to the server's answer. */
module Handshake {
  import opened Bytes
  import opened Results

  /** Where to connect: `url` is the host text, `path` the request target. */
  datatype ServerAddress = ServerAddress(url: string, port: int, path: string)

  /** A `ServerAddress` built from a host and port only takes the default
      path "/". */
  function AddressWithDefaultPath(url: string, port: int): (a: ServerAddress)
    ensures a.url == url && a.port == port && a.path == "/"
  {
    ServerAddress(url, port, "/")
  }

  /** The sixteen random octets behind the Sec-WebSocket-Key header. */
  type Nonce = s: bytes | |s| == 16 witness [0, 0, 0, 0, 0, 0, 0, 0, 0, 0, 0, 0, 0, 0, 0, 0]

  const CR: char := '\r'
  const CRLF: string := "\r\n"

  // ---------------------------------------------------------------------
  // Substring search (`std::string::find`)

  predicate OccursAt(s: string, p: string, i: nat)
  {
    i + |p| <= |s| && s[i..i + |p|] == p
  }

  /** The first position at or after `from` where `p` occurs in `s`, or
      `None` where `find` answers `npos`. */
  function FindFrom(s: string, p: string, from: nat): (r: Option<nat>)
    ensures r.Some? ==> from <= r.value && OccursAt(s, p, r.value)
    ensures r.Some? ==> forall j :: from <= j < r.value ==> !OccursAt(s, p, j)
    ensures r.None? ==> forall j :: from <= j ==> !OccursAt(s, p, j)
    decreases |s| - from
  {
    if from + |p| > |s| then None
    else if s[from..from + |p|] == p then Some(from)
    else FindFrom(s, p, from + 1)
  }

  function Find(s: string, p: string): Option<nat>
  {
    FindFrom(s, p, 0)
  }

  // ---------------------------------------------------------------------
  // Lines

  /** Each line followed by CR LF. */
  function Terminated(lines: seq<string>): string
  {
    if lines == [] then [] else lines[0] + CRLF + Terminated(lines[1..])
  }

  /** Splits `s` at every CR LF: the complete lines, then what follows the
      last CR LF. */
  function SplitLines(s: string): (seq<string>, string)
    decreases |s|
  {
    match Find(s, CRLF)
    case None => ([], s)
    case Some(i) =>
      var (lines, tail) := SplitLines(s[i + 2..]);
      ([s[..i]] + lines, tail)
  }

  /** The first CR LF after a line without CR is the one that ends it. */
  lemma FindLineEnd(line: string, rest: string)
    requires Avoids(line, CR)
    ensures Find(line + CRLF + rest, CRLF) == Some(|line|)
  {
    var s := line + CRLF + rest;
    assert s[|line|..|line| + 2] == CRLF;
    assert OccursAt(s, CRLF, |line|);
    forall j: nat | j < |line| ensures !OccursAt(s, CRLF, j) {
      assert s[j] == line[j];
    }
  }

  /** Splitting lines that were each ended by CR LF gives back those lines,
      provided none of them contains a CR. */
  lemma {:induction false} SplitTerminated(lines: seq<string>)
    requires forall i :: 0 <= i < |lines| ==> Avoids(lines[i], CR)
    ensures SplitLines(Terminated(lines)) == (lines, [])
  {
    if lines != [] {
      var rest := Terminated(lines[1..]);
      var s := lines[0] + CRLF + rest;
      assert Terminated(lines) == s;
      FindLineEnd(lines[0], rest);
      assert s[|lines[0]| + 2..] == rest;
      assert s[..|lines[0]|] == lines[0];
      SplitTerminated(lines[1..]);
      assert [lines[0]] + lines[1..] == lines;
    }
  }

  // ---------------------------------------------------------------------
  // The request

  /** `createHandshakeRequest`: the request text, with `base64` standing for
      the encoder applied to the random nonce. */
  function Request(address: ServerAddress, nonce: Nonce, base64: bytes -> string): string
  {
    "GET " + address.path + " HTTP/1.1" + CRLF
    + "Host: " + address.url + ":" + Decimal(address.port) + CRLF
    + "Origin: http://" + address.url + CRLF
    + "Upgrade: websocket" + CRLF
    + "Connection: Upgrade" + CRLF
    + "Sec-WebSocket-Key: " + base64(nonce) + CRLF
    + "Sec-WebSocket-Version: 13" + CRLF
    + CRLF
  }

  /** The request's lines, in the order the client writes them; the last is
      the empty line that ends the header block. */
  function RequestLines(address: ServerAddress, secKey: string): seq<string>
  {
    [ "GET " + address.path + " HTTP/1.1",
      "Host: " + address.url + ":" + Decimal(address.port),
      "Origin: http://" + address.url,
      "Upgrade: websocket",
      "Connection: Upgrade",
      "Sec-WebSocket-Key: " + secKey,
      "Sec-WebSocket-Version: 13",
      [] ]
  }

  /** Adding a line at the end appends it and its CR LF. */
  lemma {:induction false} TerminatedSnoc(lines: seq<string>, line: string)
    ensures Terminated(lines + [line]) == Terminated(lines) + line + CRLF
    decreases |lines|
  {
    if lines != [] {
      assert (lines + [line])[1..] == lines[1..] + [line];
      TerminatedSnoc(lines[1..], line);
    }
  }

  lemma LineStep(lines: seq<string>, k: nat, before: string, after: string)
    requires k < |lines| && Terminated(lines[..k]) == before
    requires after == before + lines[k] + CRLF
    ensures Terminated(lines[..k + 1]) == after
  {
    assert lines[..k + 1] == lines[..k] + [lines[k]];
    TerminatedSnoc(lines[..k], lines[k]);
  }

  /** Eight lines, each ended by CR LF, joined. */
  lemma TerminatedEight(l0: string, l1: string, l2: string, l3: string, l4: string, l5: string, l6: string, l7: string)
    ensures Terminated([l0, l1, l2, l3, l4, l5, l6, l7])
         == l0 + CRLF + l1 + CRLF + l2 + CRLF + l3 + CRLF + l4 + CRLF + l5 + CRLF + l6 + CRLF + l7 + CRLF
  {
    var ls := [l0, l1, l2, l3, l4, l5, l6, l7];
    var r0: string := [];
    var r1 := r0 + l0 + CRLF;
    var r2 := r1 + l1 + CRLF;
    var r3 := r2 + l2 + CRLF;
    var r4 := r3 + l3 + CRLF;
    var r5 := r4 + l4 + CRLF;
    var r6 := r5 + l5 + CRLF;
    var r7 := r6 + l6 + CRLF;
    var r8 := r7 + l7 + CRLF;
    LineStep(ls, 0, r0, r1);
    LineStep(ls, 1, r1, r2);
    LineStep(ls, 2, r2, r3);
    LineStep(ls, 3, r3, r4);
    LineStep(ls, 4, r4, r5);
    LineStep(ls, 5, r5, r6);
    LineStep(ls, 6, r6, r7);
    LineStep(ls, 7, r7, r8);
    assert ls[..8] == ls;
    assert r1 == l0 + CRLF;
  }

  /** The request text is its lines, each ended by CR LF. */
  lemma RequestIsTerminatedLines(address: ServerAddress, nonce: Nonce, base64: bytes -> string)
    ensures Request(address, nonce, base64) == Terminated(RequestLines(address, base64(nonce)))
  {
    var ls := RequestLines(address, base64(nonce));
    var q1 := "GET " + address.path + " HTTP/1.1" + CRLF;
    var q2 := q1 + "Host: " + address.url + ":" + Decimal(address.port) + CRLF;
    assert q1 + "Host: " + address.url + ":" == q1 + ("Host: " + address.url + ":");
    assert q1 + ("Host: " + address.url + ":") + Decimal(address.port) == q1 + ("Host: " + address.url + ":" + Decimal(address.port));
    var q3 := q2 + "Origin: http://" + address.url + CRLF;
    assert q2 + "Origin: http://" + address.url == q2 + ("Origin: http://" + address.url);
    var q4 := q3 + "Upgrade: websocket" + CRLF;
    var q5 := q4 + "Connection: Upgrade" + CRLF;
    var q6 := q5 + "Sec-WebSocket-Key: " + base64(nonce) + CRLF;
    assert q5 + "Sec-WebSocket-Key: " + base64(nonce) == q5 + ("Sec-WebSocket-Key: " + base64(nonce));
    var q7 := q6 + "Sec-WebSocket-Version: 13" + CRLF;
    var q8 := q7 + CRLF;
    assert q8 == q7 + ls[7] + CRLF;
    assert Request(address, nonce, base64) == q8;
    TerminatedEight(ls[0], ls[1], ls[2], ls[3], ls[4], ls[5], ls[6], ls[7]);
  }

  /** No line of the request holds a CR when the host, path and key hold
      none. */
  lemma RequestLinesAvoidCR(address: ServerAddress, secKey: string)
    requires Avoids(address.url, CR) && Avoids(address.path, CR) && Avoids(secKey, CR)
    ensures forall i :: 0 <= i < |RequestLines(address, secKey)| ==> Avoids(RequestLines(address, secKey)[i], CR)
  {
    AvoidsAppend("GET ", address.path, CR);
    AvoidsAppend("GET " + address.path, " HTTP/1.1", CR);
    AvoidsAppend("Host: ", address.url, CR);
    AvoidsAppend("Host: " + address.url, ":", CR);
    AvoidsAppend("Host: " + address.url + ":", Decimal(address.port), CR);
    AvoidsAppend("Origin: http://", address.url, CR);
    AvoidsAppend("Sec-WebSocket-Key: ", secKey, CR);
    assert Avoids("Upgrade: websocket", CR);
    assert Avoids("Connection: Upgrade", CR);
    assert Avoids("Sec-WebSocket-Version: 13", CR);
  }

  /** Read back line by line, the request is exactly the request line, Host
      with the port always present, Origin, Upgrade, Connection,
      Sec-WebSocket-Key and Sec-WebSocket-Version: 13, then an empty line and
      nothing after it -- provided the host, path and key contain no CR. */
  lemma RequestParsesToLines(address: ServerAddress, nonce: Nonce, base64: bytes -> string)
    requires Avoids(address.url, CR) && Avoids(address.path, CR) && Avoids(base64(nonce), CR)
    ensures SplitLines(Request(address, nonce, base64)) == (RequestLines(address, base64(nonce)), [])
  {
    RequestIsTerminatedLines(address, nonce, base64);
    RequestLinesAvoidCR(address, base64(nonce));
    SplitTerminated(RequestLines(address, base64(nonce)));
  }

  /** The request reads back with the address's path in its request
      line. */
  lemma RequestLineOfPath(address: ServerAddress, nonce: Nonce, base64: bytes -> string)
    requires Avoids(address.url, CR) && Avoids(address.path, CR) && Avoids(base64(nonce), CR)
    ensures var lines := SplitLines(Request(address, nonce, base64)).0;
      |lines| == 8 && lines[0] == "GET " + address.path + " HTTP/1.1"
  {
    RequestParsesToLines(address, nonce, base64);
  }

  /** An address given only a host and port asks for the root: its request
      reads back with "GET / HTTP/1.1" as its request line. */
  lemma DefaultPathRequestLine(url: string, port: int, nonce: Nonce, base64: bytes -> string)
    requires Avoids(url, CR) && Avoids(base64(nonce), CR)
    ensures var lines := SplitLines(Request(AddressWithDefaultPath(url, port), nonce, base64)).0;
      |lines| == 8 && lines[0] == "GET / HTTP/1.1"
  {
    var address := AddressWithDefaultPath(url, port);
    assert Avoids(address.path, CR);
    RequestLineOfPath(address, nonce, base64);
    assert "GET " + address.path + " HTTP/1.1" == "GET / HTTP/1.1";
  }

  // ---------------------------------------------------------------------
  // The response check

  const UpgradeStatus: string := "HTTP/1.1 101"

  /** The client accepts the handshake when the status text occurs anywhere
      in what it received; nothing else of the response is examined. */
  predicate Accepts(response: string)
  {
    Find(response, UpgradeStatus).Some?
  }

  lemma AcceptsIffContains(response: string)
    ensures Accepts(response) <==> exists i :: OccursAt(response, UpgradeStatus, i)
  {
    if Accepts(response) {
      assert OccursAt(response, UpgradeStatus, Find(response, UpgradeStatus).value);
    }
  }

  /** The status text is accepted wherever it appears, even after another
      status line, so a non-101 answer that mentions it passes. */
  lemma AcceptsAnywhere(before: string, after: string)
    ensures Accepts(before + UpgradeStatus + after)
  {
    var s := before + UpgradeStatus + after;
    assert s[|before|..|before| + |UpgradeStatus|] == UpgradeStatus;
    assert OccursAt(s, UpgradeStatus, |before|);
    AcceptsIffContains(s);
  }

  lemma SwitchingProtocolsAccepted()
    ensures Accepts("HTTP/1.1 101 Switching Protocols\r\n")
  {
    var s := "HTTP/1.1 101 Switching Protocols\r\n";
    assert s == UpgradeStatus + " Switching Protocols\r\n";
    AcceptsAnywhere([], " Switching Protocols\r\n");
    assert [] + UpgradeStatus + " Switching Protocols\r\n" == s;
  }

  /** A 404 status line does not pass. */
  lemma NotFoundRejected()
    ensures !Accepts("HTTP/1.1 404 Not Found\r\n")
  {
    var s := "HTTP/1.1 404 Not Found\r\n";
    assert forall k :: 1 <= k < |s| ==> s[k] != 'H';
    forall j: nat ensures !OccursAt(s, UpgradeStatus, j) {
      if j + |UpgradeStatus| <= |s| {
        if j == 0 {
          assert s[j..j + |UpgradeStatus|][9] != UpgradeStatus[9];
        } else {
          assert s[j..j + |UpgradeStatus|][0] == s[j];
        }
      }
    }
    AcceptsIffContains(s);
  }
}

=== FILE: results.dfy ===
/** The optional and fallible values the library passes around: a missing
    search hit (`std::string::npos`) and the `Result<T, E>` type that the
    transports and the TLS session return. */
module Results {

  datatype Option<+T> = None | Some(value: T)

  datatype Result<+T, +E> = Ok(value: T) | Err(error: E)
}

=== FILE: tls_session.dfy ===
/** `TlsSession`: the three handles a TLS connection holds (a wolfSSL
    context, a wolfSSL connection object and a socket), who releases them,
    and how wolfSSL's integer results become `TlsResult`s. wolfSSL is
    abstract: a handle is a token, and `Resources` records which tokens are
    allocated, so that leaks and double releases can be stated. */
module TlsSession {
  import opened Results

  datatype Handle = Context(id: nat) | Connection(id: nat) | Socket(fd: nat)

  /** The handles allocated and not yet released, the id the next wolfSSL
      allocation gets, the contexts set to verify their peer, and how many
      releases hit a handle that was not live (a double free or close). */
  datatype Resources = Resources(live: set<Handle>, nextId: nat, verifying: set<nat>, misuses: nat)

  /** Every wolfSSL handle allocated so far has an id below `nextId`. */
  predicate Fresh(res: Resources)
  {
    && (forall h :: h in res.live && !h.Socket? ==> h.id < res.nextId)
    && (forall id :: id in res.verifying ==> id < res.nextId)
  }

  /** The three fields; `None` is `nullptr` for `ctx` and `ssl` and
      `InvalidSockFd` for `fd`. */
  datatype Session = Session(ctx: Option<nat>, ssl: Option<nat>, fd: Option<nat>)

  /** A default-initialised or moved-from session. */
  const Empty: Session := Session(None, None, None)

  /** The handles the destructor of `s` releases. */
  function Owned(s: Session): set<Handle>
  {
    (if s.ctx.Some? then {Context(s.ctx.value)} else {})
    + (if s.ssl.Some? then {Connection(s.ssl.value)} else {})
    + (if s.fd.Some? then {Socket(s.fd.value)} else {})
  }

  /** Releasing one handle: it stops being live, or, if it was not live,
      the release is a misuse. */
  function Release(res: Resources, h: Handle): Resources
  {
    if h in res.live then res.(live := res.live - {h}) else res.(misuses := res.misuses + 1)
  }

  // ---------------------------------------------------------------------
  // Destructor and moves

  /** `~TlsSession`: frees the connection object if there is one, then the
      context if there is one, then closes the socket if it is valid. */
  function Destroy(s: Session, res: Resources): (r: Resources)
    ensures r.live == res.live - Owned(s)
    ensures r.misuses == res.misuses + |Owned(s) - res.live|
    ensures r.nextId == res.nextId && r.verifying == res.verifying
  {
    DestroyAccount(s, res);
    ReleaseIf(ReleaseIf(ReleaseIf(res, s.ssl.Some?, Connection(IdOf(s.ssl))), s.ctx.Some?, Context(IdOf(s.ctx))),
              s.fd.Some?, Socket(IdOf(s.fd)))
  }

  /** The destructor's three releases, one after the other. */
  lemma DestroyAccount(s: Session, res: Resources)
    ensures Accounted(res, ReleaseIf(ReleaseIf(ReleaseIf(res, s.ssl.Some?, Connection(IdOf(s.ssl))), s.ctx.Some?, Context(IdOf(s.ctx))),
                                     s.fd.Some?, Socket(IdOf(s.fd))), Owned(s))
  {
    AfterSocket(s, res);
    OwnedParts(s);
  }

  /** The connection object's release alone. */
  lemma AfterConnection(s: Session, res: Resources)
    ensures Accounted(res, ReleaseIf(res, s.ssl.Some?, Connection(IdOf(s.ssl))), Part(s.ssl.Some?, Connection(IdOf(s.ssl))))
  {
    assert Accounted(res, res, {});
    ReleaseIfAccount(res, res, {}, s.ssl.Some?, Connection(IdOf(s.ssl)));
    assert {} + Part(s.ssl.Some?, Connection(IdOf(s.ssl))) == Part(s.ssl.Some?, Connection(IdOf(s.ssl)));
  }

  /** Then the context's. */
  lemma AfterContext(s: Session, res: Resources)
    ensures Accounted(res, ReleaseIf(ReleaseIf(res, s.ssl.Some?, Connection(IdOf(s.ssl))), s.ctx.Some?, Context(IdOf(s.ctx))),
                      Part(s.ssl.Some?, Connection(IdOf(s.ssl))) + Part(s.ctx.Some?, Context(IdOf(s.ctx))))
  {
    AfterConnection(s, res);
    ReleaseIfAccount(res, ReleaseIf(res, s.ssl.Some?, Connection(IdOf(s.ssl))), Part(s.ssl.Some?, Connection(IdOf(s.ssl))),
                     s.ctx.Some?, Context(IdOf(s.ctx)));
  }

  /** Then the socket's. */
  lemma AfterSocket(s: Session, res: Resources)
    ensures Accounted(res, ReleaseIf(ReleaseIf(ReleaseIf(res, s.ssl.Some?, Connection(IdOf(s.ssl))), s.ctx.Some?, Context(IdOf(s.ctx))),
                                     s.fd.Some?, Socket(IdOf(s.fd))),
                      Part(s.ssl.Some?, Connection(IdOf(s.ssl))) + Part(s.ctx.Some?, Context(IdOf(s.ctx))) + Part(s.fd.Some?, Socket(IdOf(s.fd))))
  {
    AfterContext(s, res);
    ReleaseIfAccount(res, ReleaseIf(ReleaseIf(res, s.ssl.Some?, Connection(IdOf(s.ssl))), s.ctx.Some?, Context(IdOf(s.ctx))),
                     Part(s.ssl.Some?, Connection(IdOf(s.ssl))) + Part(s.ctx.Some?, Context(IdOf(s.ctx))),
                     s.fd.Some?, Socket(IdOf(s.fd)));
  }

  /** After releasing the set `done` from `start`, the live set has lost
      it, and each handle of it that was not live counted one misuse. */
  predicate Accounted(start: Resources, res: Resources, done: set<Handle>)
  {
    && res.live == start.live - done && res.misuses == start.misuses + |done - start.live|
    && res.nextId == start.nextId && res.verifying == start.verifying
  }

  /** The handles a session owns are its three fields' parts. */
  lemma OwnedParts(s: Session)
    ensures Owned(s) == Part(s.ssl.Some?, Connection(IdOf(s.ssl))) + Part(s.ctx.Some?, Context(IdOf(s.ctx)))
                        + Part(s.fd.Some?, Socket(IdOf(s.fd)))
  {
  }

  function IdOf(o: Option<nat>): nat
  {
    if o.Some? then o.value else 0
  }

  /** The handle `h` if the field holds one. */
  function Part(present: bool, h: Handle): set<Handle>
  {
    if present then {h} else {}
  }

  /** Releasing `h` if the field holds it. */
  function ReleaseIf(res: Resources, present: bool, h: Handle): Resources
  {
    if present then Release(res, h) else res
  }

  /** Releasing handles one by one from `start`: after the set `done`, the
      live set has lost them, and each that was not live counted one
      misuse. */
  lemma ReleaseIfAccount(start: Resources, res: Resources, done: set<Handle>, present: bool, h: Handle)
    requires Accounted(start, res, done) && (present ==> h !in done)
    ensures Accounted(start, ReleaseIf(res, present, h), done + Part(present, h))
  {
    if !present {
      assert done + Part(present, h) == done;
    } else if h in start.live {
      assert (done + {h}) - start.live == done - start.live;
    } else {
      assert (done + {h}) - start.live == (done - start.live) + {h};
    }
  }

  /** A moved-from (or never filled) session releases nothing. */
  lemma DestroyEmpty(res: Resources)
    ensures Destroy(Empty, res) == res
  {
  }

  /** Sessions by storage location, and the resources they share. */
  datatype World = World(sessions: map<nat, Session>, res: Resources)

  /** Every handle a session owns is live, and no handle has two owners. */
  predicate Sound(w: World)
  {
    && (forall p :: p in w.sessions ==> Owned(w.sessions[p]) <= w.res.live)
    && (forall p, q :: p in w.sessions && q in w.sessions && p != q ==> Owned(w.sessions[p]) !! Owned(w.sessions[q]))
  }

  /** `operator=(TlsSession&&)`: unless both are the same object, the
      destination takes the source's three fields and the source is reset;
      whatever the destination held before is not released. */
  function MoveAssign(w: World, dst: nat, src: nat): (r: World)
    requires dst in w.sessions && src in w.sessions
    ensures r.res == w.res && r.sessions.Keys == w.sessions.Keys
    ensures dst == src ==> r == w
    ensures dst != src ==> r.sessions[dst] == w.sessions[src] && r.sessions[src] == Empty
    ensures forall p :: p in w.sessions && p != dst && p != src ==> r.sessions[p] == w.sessions[p]
  {
    if dst == src then w else World(w.sessions[dst := w.sessions[src]][src := Empty], w.res)
  }

  /** `TlsSession(TlsSession&&)`: the new session starts from the default
      fields and is then move-assigned from `src`. */
  function MoveConstruct(w: World, dst: nat, src: nat): (r: World)
    requires dst !in w.sessions && src in w.sessions
    ensures r.res == w.res && r.sessions.Keys == w.sessions.Keys + {dst}
    ensures r.sessions[dst] == w.sessions[src] && r.sessions[src] == Empty
    ensures forall p :: p in w.sessions && p != src ==> r.sessions[p] == w.sessions[p]
  {
    MoveAssign(World(w.sessions[dst := Empty], w.res), dst, src)
  }

  /** The end of the session stored at `p`. */
  function DestroyAt(w: World, p: nat): (r: World)
    requires p in w.sessions
    ensures r.sessions.Keys == w.sessions.Keys - {p}
    ensures forall q :: q in r.sessions ==> r.sessions[q] == w.sessions[q]
  {
    World(w.sessions - {p}, Destroy(w.sessions[p], w.res))
  }

  /** A move assignment, into any session, keeps every live handle with at
      most one owner and every owned handle live. */
  lemma {:induction false} MoveAssignKeepsSound(w: World, dst: nat, src: nat)
    requires Sound(w) && dst in w.sessions && src in w.sessions
    ensures Sound(MoveAssign(w, dst, src))
  {
    var r := MoveAssign(w, dst, src);
    if dst != src {
      forall p, q | p in r.sessions && q in r.sessions && p != q
        ensures Owned(r.sessions[p]) !! Owned(r.sessions[q])
      {
        var p' := if p == dst then src else p;
        var q' := if q == dst then src else q;
        if p != src && q != src {
          assert Owned(r.sessions[p]) == Owned(w.sessions[p']);
          assert Owned(r.sessions[q]) == Owned(w.sessions[q']);
        }
      }
    }
  }

  lemma MoveConstructKeepsSound(w: World, dst: nat, src: nat)
    requires Sound(w) && dst !in w.sessions && src in w.sessions
    ensures Sound(MoveConstruct(w, dst, src))
  {
    var w' := World(w.sessions[dst := Empty], w.res);
    assert Sound(w');
    MoveAssignKeepsSound(w', dst, src);
  }

  /** Moving into a session that still holds handles leaks them: they stay
      allocated and no session owns them any more. */
  lemma OverwriteLeaks(w: World, dst: nat, src: nat, h: Handle)
    requires Sound(w) && dst in w.sessions && src in w.sessions && dst != src
    requires h in Owned(w.sessions[dst])
    ensures var r := MoveAssign(w, dst, src);
      h in r.res.live && forall p :: p in r.sessions ==> h !in Owned(r.sessions[p])
  {
    var r := MoveAssign(w, dst, src);
    forall p | p in r.sessions ensures h !in Owned(r.sessions[p]) {
      if p == dst {
        assert Owned(w.sessions[dst]) !! Owned(w.sessions[src]);
      } else if p != src {
        assert Owned(w.sessions[dst]) !! Owned(w.sessions[p]);
      }
    }
  }

  /** Destroying a session releases exactly what it owns, with no misuse,
      and the remaining sessions still own live handles only. */
  lemma DestroyKeepsSound(w: World, p: nat)
    requires Sound(w) && p in w.sessions
    ensures var r := DestroyAt(w, p);
      && Sound(r)
      && r.res.live == w.res.live - Owned(w.sessions[p])
      && r.res.misuses == w.res.misuses
  {
    var r := DestroyAt(w, p);
    forall q | q in r.sessions ensures Owned(r.sessions[q]) <= r.res.live {
      assert Owned(w.sessions[q]) !! Owned(w.sessions[p]);
    }
  }

  /** After a move, destroying the moved-from session changes nothing. */
  lemma MovedFromReleasesNothing(w: World, dst: nat, src: nat)
    requires dst in w.sessions && src in w.sessions && dst != src
    ensures var r := MoveAssign(w, dst, src);
      DestroyAt(r, src).res == w.res
  {
    DestroyEmpty(w.res);
  }

  // ---------------------------------------------------------------------
  // create

  /** What wolfSSL answers during `create`: whether `wolfSSL_CTX_new`,
      `wolfSSL_CTX_set_default_verify_paths` and `wolfSSL_new` succeed, and
      the code `wolfSSL_ERR_get_error` then reports. */
  datatype LibraryAnswers = LibraryAnswers(contextOk: bool, verifyPathsOk: bool, connectionOk: bool, errorCode: nat)

  datatype TlsError = TlsError(code: nat)

  /** The outcome of `create`: the resources afterwards, the socket the
      TCP stream still owns (`None` once its handle was released), and the
      session or the error. */
  datatype Creation = Creation(res: Resources, stream: Option<nat>, result: Result<Session, TlsError>)

  /** Whether `create` fails: no context, unusable verify paths when peers
      are verified, or no connection object. */
  predicate CreateFails(insecure: bool, answers: LibraryAnswers)
  {
    !answers.contextOk || (!insecure && !answers.verifyPathsOk) || !answers.connectionOk
  }

  /** The steps `create` and its corrected form share, up to the moment the
      stream's socket is handed on: the context (freed again if verify paths
      or the connection object fail), its verify mode, the connection
      object. On success it yields the two new ids. */
  function Allocate(res: Resources, insecure: bool, answers: LibraryAnswers): (r: (Resources, Result<(nat, nat), TlsError>))
    requires Fresh(res)
    ensures Fresh(r.0) && r.0.misuses == res.misuses
    ensures r.1.Err? <==> CreateFails(insecure, answers)
    ensures r.1.Err? ==> r.1.error == TlsError(answers.errorCode) && r.0.live == res.live
    ensures r.1.Ok? ==>
      var (ctx, ssl) := r.1.value;
      && Context(ctx) !in res.live && Connection(ssl) !in res.live
      && r.0.live == res.live + {Context(ctx), Connection(ssl)}
      && (ctx in r.0.verifying <==> !insecure)
  {
    if !answers.contextOk then (res, Err(TlsError(answers.errorCode)))
    else
      var ctx := res.nextId;
      var withCtx := res.(live := res.live + {Context(ctx)}, nextId := ctx + 1);
      if !insecure && !answers.verifyPathsOk then
        (Release(withCtx, Context(ctx)), Err(TlsError(answers.errorCode)))
      else
        var verified := if insecure then withCtx else withCtx.(verifying := withCtx.verifying + {ctx});
        if !answers.connectionOk then
          (Release(verified, Context(ctx)), Err(TlsError(answers.errorCode)))
        else
          var ssl := ctx + 1;
          (verified.(live := verified.live + {Connection(ssl)}, nextId := ssl + 1), Ok((ctx, ssl)))
  }

  /** `TlsSession::create` as written: on success the session holds the new
      context and connection object, and the stream's socket is released
      from the stream and handed to wolfSSL only, so the session's `fd`
      stays invalid. On every failure whatever was allocated is freed again
      and the stream keeps its socket. */
  function Create(res: Resources, stream: nat, insecure: bool, answers: LibraryAnswers): (c: Creation)
    requires Fresh(res) && Socket(stream) in res.live
    ensures Fresh(c.res) && c.res.misuses == res.misuses
    ensures c.result.Err? <==> CreateFails(insecure, answers)
    ensures c.result.Err? ==> && c.result.error == TlsError(answers.errorCode)
                              && c.stream == Some(stream) && c.res.live == res.live
    ensures c.result.Ok? ==> && c.result.value.ctx.Some? && c.result.value.ssl.Some? && c.result.value.fd.None?
                             && Owned(c.result.value) !! res.live
                             && c.res.live == res.live + Owned(c.result.value)
                             && (c.result.value.ctx.value in c.res.verifying <==> !insecure)
                             && c.stream.None?
  {
    var (after, ids) := Allocate(res, insecure, answers);
    match ids
    case Err(e) => Creation(after, Some(stream), Err(e))
    case Ok((ctx, ssl)) => Creation(after, None, Ok(Session(Some(ctx), Some(ssl), None)))
  }

  /** The socket `create` takes from the stream is still open after the
      session that came out of it is destroyed, and nothing owns it. */
  lemma CreateLeaksSocket(res: Resources, stream: nat, insecure: bool, answers: LibraryAnswers)
    requires Fresh(res) && Socket(stream) in res.live && !CreateFails(insecure, answers)
    ensures var c := Create(res, stream, insecure, answers);
      && c.result.Ok? && c.stream.None?
      && Socket(stream) in Destroy(c.result.value, c.res).live
  {
  }

  /** `create` as evidently intended: the released socket is stored in the
      session's `fd`, so the session owns all three handles. */
  function CreateOwningSocket(res: Resources, stream: nat, insecure: bool, answers: LibraryAnswers): (c: Creation)
    requires Fresh(res) && Socket(stream) in res.live
    ensures Fresh(c.res) && c.res.misuses == res.misuses
    ensures c.result.Err? <==> CreateFails(insecure, answers)
    ensures c.result.Err? ==> && c.result.error == TlsError(answers.errorCode)
                              && c.stream == Some(stream) && c.res.live == res.live
    ensures c.result.Ok? ==> && c.result.value.fd == Some(stream) && c.stream.None?
                             && c.res.live == res.live + Owned(c.result.value)
                             && (c.result.value.ctx.Some? && c.result.value.ctx.value in c.res.verifying <==> !insecure)
  {
    var (after, ids) := Allocate(res, insecure, answers);
    match ids
    case Err(e) => Creation(after, Some(stream), Err(e))
    case Ok((ctx, ssl)) => Creation(after, None, Ok(Session(Some(ctx), Some(ssl), Some(stream))))
  }

  /** With the socket stored, creating a session and destroying it releases
      everything it allocated and the socket, and nothing else. */
  lemma CreateThenDestroyReleasesAll(res: Resources, stream: nat, insecure: bool, answers: LibraryAnswers)
    requires Fresh(res) && Socket(stream) in res.live
    ensures var c := CreateOwningSocket(res, stream, insecure, answers);
      c.result.Ok? ==> && Destroy(c.result.value, c.res).live == res.live - {Socket(stream)}
                       && Destroy(c.result.value, c.res).misuses == res.misuses
  {
    var c := CreateOwningSocket(res, stream, insecure, answers);
    if c.result.Ok? {
      var s := c.result.value;
      var (after, ids) := Allocate(res, insecure, answers);
      var (ctx, ssl) := ids.value;
      assert Owned(s) == {Context(ctx), Connection(ssl), Socket(stream)};
    }
  }

  // ---------------------------------------------------------------------
  // Result mapping

  /** `WOLFSSL_SUCCESS` in wolfSSL's headers. */
  const WolfSslSuccess: int := 1

  /** `send` and `receive`: a negative wolfSSL result is an error with the
      library's error code, anything else is the number of octets moved. */
  function TransferResult(result: int, code: nat): (r: Result<nat, TlsError>)
    ensures r.Ok? <==> result >= 0
    ensures r.Ok? ==> r.value == result
    ensures r.Err? ==> r.error == TlsError(code)
  {
    if result < 0 then Err(TlsError(code)) else Ok(result)
  }

  /** `handshake` and `shutdown`: success only for `WOLFSSL_SUCCESS`. */
  function StatusResult(result: int, code: nat): (r: Result<(), TlsError>)
    ensures r.Ok? <==> result == WolfSslSuccess
    ensures r.Err? ==> r.error == TlsError(code)
  {
    if result != WolfSslSuccess then Err(TlsError(code)) else Ok(())
  }

  /** The two mappings part ways on positive results other than
      `WOLFSSL_SUCCESS`: a transfer of that many octets succeeds, while a
      handshake or shutdown answering it (as an unfinished bidirectional
      shutdown does) fails. */
  lemma MappingsDiffer(result: int, code: nat)
    requires result > 0
    ensures TransferResult(result, code) == Ok(result)
    ensures StatusResult(result, code).Ok? <==> result == WolfSslSuccess
  {
  }
}

=== FILE: tls_transport.dfy ===
/** `TlsTransport`: the transport over a `TlsSession`. Every result of the
    session passes through `mapResult`, which keeps a success and turns the
    library's error into its message text; `receive` and `send` answer with
    `TransferResult`, `connect` and `shutdown` with `StatusResult`. The text
    wolfSSL gives an error code is the parameter `message`. */
module TlsTransport {
  import opened Bytes
  import opened Results
  import opened TlsSession
  import BaseTransport

  /** `mapResult`: a success is kept, an error becomes its message. */
  function MapError<T>(r: Result<T, TlsError>, message: nat -> string): (m: Result<T, string>)
    ensures m.Ok? <==> r.Ok?
    ensures r.Ok? ==> m.value == r.value
    ensures r.Err? ==> m.error == message(r.error.code)
  {
    match r
    case Ok(v) => Ok(v)
    case Err(e) => Err(message(e.code))
  }

  /** What one `wolfSSL_read` or `wolfSSL_write` answer, with the error
      code wolfSSL reports beside it, looks like to the transport loops. */
  function TransferStep(answer: int, code: nat, message: nat -> string): BaseTransport.Step
  {
    match MapError(TransferResult(answer, code), message)
    case Ok(n) => BaseTransport.Chunk(n)
    case Err(e) => BaseTransport.Failure(e)
  }

  /** The answers of successive calls, as a script of the primitive. */
  function TransferSteps(answers: seq<int>, codes: seq<nat>, message: nat -> string): (script: seq<BaseTransport.Step>)
    requires |codes| == |answers|
    ensures |script| == |answers|
  {
    seq(|answers|, i requires 0 <= i < |answers| => TransferStep(answers[i], codes[i], message))
  }

  /** Call `i` of a loop over the session asked wolfSSL and got
      `answers[i]`: while answers remain, a negative one is the error with
      its code's text and any other is a count no larger than the answer. */
  lemma TransferAnswer(calls: seq<BaseTransport.Call>, answers: seq<int>, codes: seq<nat>, message: nat -> string, i: nat)
    requires |codes| == |answers| && BaseTransport.Answered(calls, TransferSteps(answers, codes, message))
    requires i < |calls| && i < |answers|
    ensures answers[i] < 0 <==> calls[i].reply.Err?
    ensures answers[i] < 0 ==> calls[i].reply == Err(message(codes[i]))
    ensures answers[i] >= 0 ==> calls[i].reply.value <= answers[i]
  {
    var script := TransferSteps(answers, codes, message);
    assert BaseTransport.NextStep(BaseTransport.Drop(script, i), calls[i].want) == script[i];
  }

  /** Past the last scripted answer the primitive never fails. */
  lemma BeyondAnswers(calls: seq<BaseTransport.Call>, answers: seq<int>, codes: seq<nat>, message: nat -> string, i: nat)
    requires |codes| == |answers| && BaseTransport.Answered(calls, TransferSteps(answers, codes, message))
    requires |answers| <= i < |calls|
    ensures calls[i].reply.Ok?
  {
    assert BaseTransport.Drop(TransferSteps(answers, codes, message), i) == [];
  }

  /** `receiveExact` over a TLS session whose successive `wolfSSL_read`
      calls answer `answers` (and, past them, whatever is asked for). Every
      call but the last got a positive answer. The loop fails exactly when
      a read answers negatively, with that code's text, or when a read
      moves nothing, which is the closed connection. */
  method ReceiveExactOverTls(pending: bytes, answers: seq<int>, codes: seq<nat>, message: nat -> string, size: nat)
    returns (r: Result<(), string>, filled: bytes, calls: seq<BaseTransport.Call>)
    requires |codes| == |answers|
    ensures |filled| <= size && |filled| <= |pending| && filled == pending[..|filled|]
    ensures r.Ok? <==> |filled| == size
    ensures forall i :: 0 <= i < |calls| - 1 && i < |answers| ==> answers[i] > 0
    ensures r.Err? ==>
      var m := |calls| - 1;
      && 0 <= m
      && (m < |answers| && answers[m] < 0 ==> r.error == message(codes[m]))
      && (m >= |answers| || answers[m] >= 0 ==> r.error == BaseTransport.ClosedReceiving)
  {
    var script := TransferSteps(answers, codes, message);
    var rest;
    r, filled, rest, calls := BaseTransport.ReceiveExact(BaseTransport.Inbound(pending, script), size);
    assert pending == filled + rest.pending;
    BaseTransport.ChainedMoved(calls, size);
    forall i | 0 <= i < |calls| - 1 && i < |answers|
      ensures answers[i] > 0
    {
      TransferAnswer(calls, answers, codes, message, i);
    }
    if r.Err? {
      var m := |calls| - 1;
      if m < |answers| {
        TransferAnswer(calls, answers, codes, message, m);
      } else {
        BeyondAnswers(calls, answers, codes, message, m);
      }
    }
  }

  /** `sendAll` over a TLS session whose successive `wolfSSL_write` calls
      answer `answers`: the same three outcomes, with the sending side's
      closed-connection text. */
  method SendAllOverTls(accepted: bytes, data: bytes, answers: seq<int>, codes: seq<nat>, message: nat -> string)
    returns (r: Result<nat, string>, sent: bytes, calls: seq<BaseTransport.Call>)
    requires |codes| == |answers|
    ensures |sent| <= |data| && sent == data[..|sent|]
    ensures r.Ok? <==> sent == data
    ensures r.Ok? ==> r.value == |data|
    ensures forall i :: 0 <= i < |calls| - 1 && i < |answers| ==> answers[i] > 0
    ensures r.Err? ==>
      var m := |calls| - 1;
      && 0 <= m
      && (m < |answers| && answers[m] < 0 ==> r.error == message(codes[m]))
      && (m >= |answers| || answers[m] >= 0 ==> r.error == BaseTransport.ClosedSending)
  {
    var script := TransferSteps(answers, codes, message);
    var rest;
    r, rest, calls := BaseTransport.SendAll(BaseTransport.Outbound(accepted, script), data);
    sent := data[..BaseTransport.Reached(calls)];
    if r.Err? {
      var last := calls[|calls| - 1];
      assert BaseTransport.Reached(calls) == last.offset < |data|;
      assert |sent| < |data|;
    }
    BaseTransport.ChainedMoved(calls, |data|);
    forall i | 0 <= i < |calls| - 1 && i < |answers|
      ensures answers[i] > 0
    {
      TransferAnswer(calls, answers, codes, message, i);
    }
    if r.Err? {
      var m := |calls| - 1;
      if m < |answers| {
        TransferAnswer(calls, answers, codes, message, m);
      } else {
        BeyondAnswers(calls, answers, codes, message, m);
      }
    }
  }

  // ---------------------------------------------------------------------
  // Connect and shutdown

  /** What the library answers while connecting: the TCP connect (a new
      socket, or the error's text), the three allocation answers of
      `create`, and `wolfSSL_connect`'s result with its error code. */
  datatype Attempt = Attempt(tcp: Result<nat, string>, library: LibraryAnswers, handshake: int, handshakeCode: nat)

  /** `TlsTransport::connect`: TCP connect, `create` with peer
      verification off, then the handshake. A stream `create` did not take
      closes its socket when `connect` returns, and a session whose
      handshake failed is destroyed on the way out. */
  function Connect(res: Resources, attempt: Attempt, message: nat -> string): (r: (Resources, Result<Session, string>))
    requires Fresh(res) && (attempt.tcp.Ok? ==> Socket(attempt.tcp.value) !in res.live)
    ensures r.1.Ok? <==> attempt.tcp.Ok? && !CreateFails(true, attempt.library) && attempt.handshake == WolfSslSuccess
    ensures attempt.tcp.Err? ==> r == (res, Err(attempt.tcp.error))
    ensures attempt.tcp.Ok? && CreateFails(true, attempt.library) ==>
      r.0.live == res.live && r.1 == Err(message(attempt.library.errorCode))
    ensures attempt.tcp.Ok? && !CreateFails(true, attempt.library) && attempt.handshake != WolfSslSuccess ==>
      r.0.live == res.live + {Socket(attempt.tcp.value)} && r.1 == Err(message(attempt.handshakeCode))
    ensures r.1.Ok? ==>
      && r.0.live == res.live + {Socket(attempt.tcp.value)} + Owned(r.1.value)
      && r.1.value.ctx.Some? && r.1.value.ctx.value !in r.0.verifying
  {
    match attempt.tcp
    case Err(e) => (res, Err(e))
    case Ok(fd) =>
      var connected := res.(live := res.live + {Socket(fd)});
      var created := Create(connected, fd, true, attempt.library);
      match created.result
      case Err(e) => (Release(created.res, Socket(fd)), Err(message(e.code)))
      case Ok(session) =>
        match MapError(StatusResult(attempt.handshake, attempt.handshakeCode), message)
        case Err(e) => (Destroy(session, created.res), Err(e))
        case Ok(_) => (created.res, Ok(session))
  }

  /** A handshake that fails frees the context and the connection object
      but leaves the socket `create` released open, with no owner. */
  lemma FailedHandshakeLeaksSocket(res: Resources, attempt: Attempt, message: nat -> string)
    requires Fresh(res) && attempt.tcp.Ok? && Socket(attempt.tcp.value) !in res.live
    requires !CreateFails(true, attempt.library) && attempt.handshake != WolfSslSuccess
    ensures var (after, result) := Connect(res, attempt, message);
      && result.Err? && Socket(attempt.tcp.value) in after.live
      && after.live - {Socket(attempt.tcp.value)} == res.live
  {
  }

  /** `TlsTransport::shutdown`: fine only when wolfSSL answers
      `WOLFSSL_SUCCESS`; an unfinished bidirectional shutdown (answer 2) is
      already a failure with the library's text. */
  function Shutdown(answer: int, code: nat, message: nat -> string): (r: Result<(), string>)
    ensures r.Ok? <==> answer == WolfSslSuccess
    ensures r.Err? ==> r.error == message(code)
  {
    MapError(StatusResult(answer, code), message)
  }
}

=== FILE: transport.dfy ===
/** `BaseTransport`: the two loops every transport inherits, `receiveExact`
    and `sendAll`, over the primitive `receive` and `send` a concrete
    transport supplies. The primitive is modelled by a script of answers, so
    every chunking and every failure point can be stated. */
module BaseTransport {
  import opened Bytes
  import opened Results

  /** One scripted answer of the primitive: move at most `limit` octets, or
      fail with `reason`. */
  datatype Step = Chunk(limit: nat) | Failure(reason: string)

  /** The receiving side: what the peer has sent and nobody has read yet,
      and the answers the primitive still has to give. Once the script is
      used up the primitive moves as much as it is asked for and has. */
  datatype Inbound = Inbound(pending: bytes, script: seq<Step>)

  /** The sending side: what the peer has accepted so far, and the answers
      the primitive still has to give; past the script it takes everything. */
  datatype Outbound = Outbound(accepted: bytes, script: seq<Step>)

  const ClosedReceiving: string := "Connection closed before receiving all data"
  const ClosedSending: string := "Connection closed before sending all data"

  /** The primitive's next answer to a request for `want` octets. */
  function NextStep(script: seq<Step>, want: nat): Step
  {
    if script == [] then Chunk(want) else script[0]
  }

  /** The script after `n` answers. */
  function Drop(script: seq<Step>, n: nat): seq<Step>
  {
    if n >= |script| then [] else script[n..]
  }

  lemma DropStep(script: seq<Step>, n: nat)
    ensures Drop(Drop(script, n), 1) == Drop(script, n + 1)
    ensures Clean(script) ==> Clean(Drop(script, n))
  {
    if n + 1 < |script| {
      assert script[n..][1..] == script[n + 1..];
    }
  }

  /** Dropping one step and then `n` drops `n + 1` steps. */
  lemma DropDrop(script: seq<Step>, n: nat)
    ensures Drop(Drop(script, 1), n) == Drop(script, n + 1)
  {
    if 1 <= |script| && n + 1 < |script| {
      assert script[1..][n..] == script[n + 1..];
    }
  }

  /** A script that never fails and never reports a closed connection by
      itself: every chunk moves at least one octet when it can. */
  predicate Clean(script: seq<Step>)
  {
    forall i :: 0 <= i < |script| ==> script[i].Chunk? && script[i].limit > 0
  }

  /** The primitive `receive`: at most `want` octets, taken from the front
      of what the peer sent. */
  function Receive(src: Inbound, want: nat): (r: (Result<bytes, string>, Inbound))
    ensures r.1.script == Drop(src.script, 1)
    ensures r.0.Ok? ==> |r.0.value| <= want && src.pending == r.0.value + r.1.pending
    ensures r.0.Ok? ==> NextStep(src.script, want).Chunk? && |r.0.value| <= NextStep(src.script, want).limit
    ensures r.0.Err? ==> r.1.pending == src.pending && NextStep(src.script, want) == Failure(r.0.error)
    ensures Clean(src.script) ==> r.0.Ok? && (r.0.value == [] <==> want == 0 || src.pending == [])
  {
    match NextStep(src.script, want)
    case Failure(e) => (Err(e), Inbound(src.pending, Drop(src.script, 1)))
    case Chunk(limit) =>
      var n := Min(Min(limit, want), |src.pending|);
      (Ok(src.pending[..n]), Inbound(src.pending[n..], Drop(src.script, 1)))
  }

  /** The primitive `send`: the peer accepts a prefix of at most `want`
      octets of `data`. */
  function Send(dst: Outbound, data: bytes): (r: (Result<nat, string>, Outbound))
    ensures r.1.script == Drop(dst.script, 1)
    ensures r.0.Ok? ==> r.0.value <= |data| && r.1.accepted == dst.accepted + data[..r.0.value]
    ensures r.0.Ok? ==> NextStep(dst.script, |data|).Chunk? && r.0.value <= NextStep(dst.script, |data|).limit
    ensures r.0.Err? ==> r.1.accepted == dst.accepted && NextStep(dst.script, |data|) == Failure(r.0.error)
    ensures Clean(dst.script) ==> r.0.Ok? && (r.0.value == 0 <==> data == [])
  {
    match NextStep(dst.script, |data|)
    case Failure(e) => (Err(e), Outbound(dst.accepted, Drop(dst.script, 1)))
    case Chunk(limit) =>
      var n := Min(limit, |data|);
      (Ok(n), Outbound(dst.accepted + data[..n], Drop(dst.script, 1)))
  }

  /** One call of the primitive: where in the buffer it started, how many
      octets it was asked for, and what it answered. */
  datatype Call = Call(offset: nat, want: nat, reply: Result<nat, string>)

  /** How far the calls got: the offset after the last one. */
  function Reached(calls: seq<Call>): nat
  {
    if calls == [] then 0
    else
      var last := calls[|calls| - 1];
      last.offset + (if last.reply.Ok? then last.reply.value else 0)
  }

  /** The last call moved at least one octet, so the loop went on. */
  predicate Continued(calls: seq<Call>)
  {
    calls != [] ==> calls[|calls| - 1].reply.Ok? && calls[|calls| - 1].reply.value > 0
  }

  /** The calls a loop over `size` octets makes: each starts where the
      earlier ones reached (0 for the first), comes only after a call that
      moved something, is asked for exactly what is still missing, and
      gets no more than that. */
  predicate Chained(calls: seq<Call>, size: nat)
    decreases |calls|
  {
    calls == [] ||
    var prior := calls[..|calls| - 1];
    var last := calls[|calls| - 1];
    && Chained(prior, size)
    && Continued(prior)
    && last.offset == Reached(prior) < size
    && last.want == size - last.offset
    && (last.reply.Ok? ==> last.reply.value <= last.want)
  }

  /** A call that starts where the chain reached and asks for the rest
      extends the chain. */
  lemma {:induction false} ChainedSnoc(calls: seq<Call>, size: nat, c: Call)
    requires Chained(calls, size) && Continued(calls)
    requires c.offset == Reached(calls) < size && c.want == size - c.offset
    requires c.reply.Ok? ==> c.reply.value <= c.want
    ensures Chained(calls + [c], size)
    ensures Reached(calls + [c]) == c.offset + (if c.reply.Ok? then c.reply.value else 0)
  {
    assert (calls + [c])[..|calls|] == calls;
  }

  /** Every call but the last of a chain moved at least one octet. */
  lemma {:induction false} ChainedMoved(calls: seq<Call>, size: nat)
    requires Chained(calls, size)
    ensures forall i :: 0 <= i < |calls| - 1 ==> calls[i].reply.Ok? && calls[i].reply.value > 0
    decreases |calls|
  {
    if calls != [] {
      var prior := calls[..|calls| - 1];
      ChainedMoved(prior, size);
      assert forall i :: 0 <= i < |prior| ==> prior[i] == calls[i];
    }
  }

  /** A reply the step allows: the failure it names, or a count no larger
      than its limit. */
  predicate Answers(step: Step, reply: Result<nat, string>)
  {
    match step
    case Failure(e) => reply == Err(e)
    case Chunk(limit) => reply.Ok? && reply.value <= limit
  }

  /** Call `i` got an answer the script's step `i` allows. */
  predicate Answered(calls: seq<Call>, script: seq<Step>)
  {
    forall i :: 0 <= i < |calls| ==> Answers(NextStep(Drop(script, i), calls[i].want), calls[i].reply)
  }

  lemma AnsweredSnoc(calls: seq<Call>, script: seq<Step>, c: Call)
    requires Answered(calls, script) && Answers(NextStep(Drop(script, |calls|), c.want), c.reply)
    ensures Answered(calls + [c], script)
  {
    assert forall i :: 0 <= i < |calls| ==> (calls + [c])[i] == calls[i];
  }

  /** A prefix followed by the next `n` octets is the longer prefix. */
  lemma PrefixExtend(s: bytes, i: nat, n: nat)
    requires i + n <= |s|
    ensures s[..i] + s[i..][..n] == s[..i + n]
  {
    assert forall k :: 0 <= k < i + n ==> (s[..i] + s[i..][..n])[k] == s[k];
  }

  /** The call record of one `receive`: the octet count, or the failure. */
  function Record(offset: nat, want: nat, reply: Result<bytes, string>): Call
  {
    Call(offset, want, if reply.Ok? then Ok(|reply.value|) else Err(reply.error))
  }

  /** What one more `receive` inside `receiveExact` does to the loop's
      state. */
  lemma {:induction false} ReceiveStep(src: Inbound, size: nat, filled: bytes, rest: Inbound, calls: seq<Call>,
                    reply: Result<bytes, string>, next: Inbound)
    requires src.pending == filled + rest.pending && |filled| < size
    requires Chained(calls, size) && Reached(calls) == |filled| && Continued(calls)
    requires rest.script == Drop(src.script, |calls|)
    requires (reply, next) == Receive(rest, size - |filled|)
    ensures Chained(calls + [Record(|filled|, size - |filled|, reply)], size)
    ensures next.script == Drop(src.script, |calls| + 1)
    ensures reply.Ok? ==> && src.pending == (filled + reply.value) + next.pending
                          && Reached(calls + [Record(|filled|, size - |filled|, reply)]) == |filled| + |reply.value|
                          && (reply.value != [] ==> Continued(calls + [Record(|filled|, size - |filled|, reply)]))
    ensures Clean(src.script) ==> reply.Ok? && (reply.value == [] ==> |src.pending| == |filled|)
  {
    DropStep(src.script, |calls|);
    ChainedSnoc(calls, size, Record(|filled|, size - |filled|, reply));
  }

  /** The loop stopped at its last call: that call moved nothing, which is
      reported as `closed`, or it failed with `error`. */
  predicate Stopped(calls: seq<Call>, error: string, closed: string)
  {
    && calls != []
    && (calls[|calls| - 1].reply == Ok(0) || calls[|calls| - 1].reply == Err(error))
    && (calls[|calls| - 1].reply == Ok(0) ==> error == closed)
  }

  /** `receiveExact`: calls `receive` for the missing octets until `size`
      of them have arrived in the caller's buffer; a zero-octet answer is a
      closed connection, and a failed answer is passed on. `filled` is what
      the buffer holds when the loop stops, on failure too. */
  method ReceiveExact(src: Inbound, size: nat) returns (r: Result<(), string>, filled: bytes, rest: Inbound, calls: seq<Call>)
    ensures Chained(calls, size) && Answered(calls, src.script)
    ensures rest.script == Drop(src.script, |calls|)
    ensures src.pending == filled + rest.pending && |filled| == Reached(calls) <= size
    ensures size == 0 ==> r.Ok? && rest == src && calls == []
    ensures r.Ok? <==> |filled| == size
    ensures r.Err? ==> Stopped(calls, r.error, ClosedReceiving)
    ensures Clean(src.script) ==> (r.Ok? <==> size <= |src.pending|)
    ensures Clean(src.script) && r.Err? ==> r.error == ClosedReceiving
  {
    filled := [];
    rest := src;
    calls := [];
    r := Ok(());
    while r.Ok? && |filled| < size
      invariant src.pending == filled + rest.pending && |filled| <= size
      invariant Chained(calls, size) && Reached(calls) == |filled| && Answered(calls, src.script)
      invariant rest.script == Drop(src.script, |calls|)
      invariant r.Ok? ==> Continued(calls)
      invariant r.Err? ==> Stopped(calls, r.error, ClosedReceiving) && |filled| < size
      invariant Clean(src.script) && r.Err? ==> r.error == ClosedReceiving && rest.pending == []
      decreases size - |filled|, if r.Ok? then 1 else 0
    {
      var (reply, next) := Receive(rest, size - |filled|);
      ReceiveStep(src, size, filled, rest, calls, reply, next);
      AnsweredSnoc(calls, src.script, Record(|filled|, size - |filled|, reply));
      calls := calls + [Record(|filled|, size - |filled|, reply)];
      rest := next;
      if reply.Err? {
        r := Err(reply.error);
      } else if reply.value == [] {
        r := Err(ClosedReceiving);
      } else {
        filled := filled + reply.value;
      }
    }
  }

  /** What one more `send` inside `sendAll` does to what the peer has
      accepted. */
  lemma {:induction false} SendStep(dst: Outbound, data: bytes, total: nat, rest: Outbound,
                                    reply: Result<nat, string>, next: Outbound)
    requires total < |data| && rest.accepted == dst.accepted + data[..total]
    requires (reply, next) == Send(rest, data[total..])
    ensures reply.Ok? ==> total + reply.value <= |data| && next.accepted == dst.accepted + data[..total + reply.value]
    ensures reply.Err? ==> next.accepted == rest.accepted
    ensures Clean(rest.script) ==> reply.Ok? && reply.value > 0
  {
    if reply.Ok? {
      var chunk := data[total..][..reply.value];
      assert next.accepted == (dst.accepted + data[..total]) + chunk;
      PrefixExtend(data, total, reply.value);
      assert next.accepted == dst.accepted + (data[..total] + chunk);
    }
  }

  /** `sendAll`: calls `send` with what is still unsent until all of
      `data` is accepted, then reports its size; a zero-octet answer is a
      closed connection, and a failed answer is passed on. */
  method SendAll(dst: Outbound, data: bytes) returns (r: Result<nat, string>, rest: Outbound, calls: seq<Call>)
    ensures Chained(calls, |data|) && Answered(calls, dst.script)
    ensures rest.script == Drop(dst.script, |calls|)
    ensures Reached(calls) <= |data| && rest.accepted == dst.accepted + data[..Reached(calls)]
    ensures data == [] ==> r == Ok(0) && rest == dst && calls == []
    ensures r.Ok? ==> r.value == |data| && Reached(calls) == |data|
    ensures r.Err? ==> Stopped(calls, r.error, ClosedSending)
    ensures Clean(dst.script) ==> r == Ok(|data|)
  {
    var total := 0;
    rest := dst;
    calls := [];
    r := Ok(0);
    while r.Ok? && total < |data|
      invariant total <= |data| && rest.accepted == dst.accepted + data[..total]
      invariant Chained(calls, |data|) && Reached(calls) == total && Answered(calls, dst.script)
      invariant rest.script == Drop(dst.script, |calls|)
      invariant r.Ok? ==> Continued(calls)
      invariant r.Err? ==> Stopped(calls, r.error, ClosedSending) && !Clean(dst.script)
      decreases |data| - total, if r.Ok? then 1 else 0
    {
      var (reply, next) := Send(rest, data[total..]);
      SendStep(dst, data, total, rest, reply, next);
      DropStep(dst.script, |calls|);
      ChainedSnoc(calls, |data|, Call(total, |data| - total, reply));
      AnsweredSnoc(calls, dst.script, Call(total, |data| - total, reply));
      calls := calls + [Call(total, |data| - total, reply)];
      rest := next;
      if reply.Err? {
        r := Err(reply.error);
      } else if reply.value == 0 {
        r := Err(ClosedSending);
      } else {
        total := total + reply.value;
      }
    }
    if r.Ok? {
      r := Ok(total);
    }
  }
}
